=== FILE: README.md ===
# OpenTracing Go API: span start and propagation, in Dafny

This project models the core of the OpenTracing API for Go. It covers:

- how `StartSpanOption` values (`SpanReference`, `StartTime`, `Tags`, `Tag`) fold into a `StartSpanOptions` bundle;
- the `TextMapCarrier` and `HTTPHeadersCarrier` propagation carriers, with their `Set` and short-circuiting `ForeachKey`;
- the reference test tracer, whose `Inject`/`Extract` move a decimal fake id under the key `testprefix-fakeid`;
- the no-op tracer and span;
- the bridge between spans and Go's ambient `context.Context`, including the optional `ContextWithSpanHook` of tracers that implement the extension;
- the global tracer registry;
- `LogData.ToLogRecord` and the Active→Finished lifecycle the `Span` interface documents.

Everything is pure and sequential. Go's mutable state is threaded as explicit values:

- the fake-id counter `fakeIDSource` is an `Int64` argument and result;
- the global registry is a `Registry` value;
- the carrier is a map value;
- `time.Now()` is a `now` argument.

The Go map iteration order that `ForeachKey` follows is an explicit `order` argument. Every proved fact about a walk holds for all orders.

The world of tracers is closed:

- `TracerKind` is the no-op tracer, the test tracer, or a foreign tracer;
- `SpanContext` and `Span` follow the same split.

What a foreign tracer does (its `StartSpan`, its context hook) is code outside this model. It enters as the record of functions `Tracers.ForeignCode`.

An `http.Header` is a plain map, and its keys are compared exactly. Case only stops mattering in two places: `Set`, `Add` and `Get` canonicalise the key, and the test tracer's extractor lower-cases each key it visits. `ForeachKey` hands out the stored keys. They are canonical only when they were written through `Set` or `Add`; a header built directly may hold raw keys such as `TESTPREFIX-FAKEID`.

Modules:

- `Wrappers`: `Option` and `Result`.
- `Strings`: ASCII `strings.ToLower`.
- `Strconv`: `strconv.Itoa`/`Atoi` on 64-bit `int`, errors included.
- `Header`: `http.Header` with key canonicalisation, `Add`, `Get`.
- `Spans` (span.go): contexts, spans, baggage walk, lifecycle, `ToLogRecord`.
- `Options` (tracer.go): the option algebra.
- `Propagation` (propagation.go): errors, formats, carriers.
- `Noop` (noop.go).
- `FakeTracer` (testtracer_test.go).
- `Ambient`: the `context.Context` value chain.
- `Tracers`: `Tracer.StartSpan` dispatch.
- `Global` (globaltracer.go).
- `GoContext` (gocontext.go).
- `Scenarios`: the four carrier scenarios of propagation_test.go, as lemmas.

## Model

| member | source | states |
|---|---|---|
| Options.ApplyReference | tracer.go:201-205 | a reference with a nil context leaves the whole bundle unchanged; otherwise exactly that reference is appended at the end, and start time and tags are untouched |
| Options.ChildOf | tracer.go:211-216 | the reference has type `ChildOfRef` (value 0) and carries the given context |
| Options.FollowsFrom | tracer.go:223-228 | the reference has type `FollowsFromRef` (value 1) and carries the given context |
| Options.ReferenceTypeCodes | tracer.go:146-185 | `ChildOfRef` is 0, `FollowsFromRef` is 1, and equal codes mean equal reference types |
| Options.ApplyStartTime | tracer.go:234-236 | the start time is overwritten; references and tags are untouched |
| Options.ApplyTags | tracer.go:243-250 | the tag map is allocated if nil; keys of the option take its values, other keys keep theirs, no other key appears |
| Options.ApplyTag | tracer.go:267-272 | the tag map is allocated if nil; the key takes the value and every other key is unchanged |
| Options.Apply | tracer.go:136-138 | each option kind touches only its own field: only a reference changes the references, only `StartTime` the start time, only `Tags`/`Tag` the tags; an allocated tag map stays allocated |
| Options.ApplyAll | tracer.go:106-116 | folding in call order only appends to the references already present and never de-allocates the tag map |
| Options.Fold | tracer.go:106-121 | from an empty bundle, the references are the non-nil reference options in order and the start time is the last `StartTime` option's, zero when there is none |
| Options.ApplyAllAppend | tracer.go:106-116 | folding options in call order is compositional: folding `a + b` is folding `b` after `a` |
| Options.ApplyAllReferences | tracer.go:106-121 | folding appends exactly the non-nil reference options, in their original order |
| Options.FoldReferences | tracer.go:106-121 | the folded references are the non-nil reference options in order; no options give an empty list, i.e. a root span |
| Options.ApplyAllStartTime | tracer.go:234-236 | after folding, the start time is the one from the last `StartTime` option, or the initial one when there is none |
| Options.ApplyAllTagsAllocated | tracer.go:243-272 | after folding, the tag map is non-nil exactly when it was already allocated or some `Tags`/`Tag` option was applied |
| Options.LastTagWins | tracer.go:267-272 | a trailing `Tag(key, value)` leaves the folded tags as before, with the key overridden |
| Options.FoldAppendReference | tracer.go:201-205 | appending a non-nil reference option appends that reference to the folded bundle and changes nothing else |
| Options.FoldAppendNilReference | tracer.go:201-205 | appending a reference option with a nil context leaves the folded bundle unchanged |
| Propagation.SentinelsDistinct | propagation.go:12-28 | the five sentinel errors are pairwise distinct |
| Propagation.BuiltinFormatsDistinct | propagation.go:35-78 | `Binary`, `TextMap` and `HTTPHeaders` are the distinct byte values 0, 1 and 2 |
| Propagation.Foreach | propagation.go:105-112 | the pairs handed to the handler are a prefix of the pairs offered; with no error, all of them; an error comes only after at least one call |
| Propagation.ForeachAppend | propagation.go:105-112 | a walk over `a + b` is the walk over `a`, then, only if that returned no error, the walk over `b` from the resulting state |
| Propagation.ForeachStopsAtError | propagation.go:106-109 | the first handler error is returned and no pair after it is visited |
| Propagation.ForeachNoError | propagation.go:105-111 | if the handler never fails, the walk returns nil and visits every pair |
| Propagation.TextPairsExact | propagation.go:105-111 | a text map in any order offers each stored (key, value) pair exactly once, and nothing else |
| Propagation.TextMapForeachKey | propagation.go:105-112 | `ForeachKey` visits a prefix of the map's pairs; on success, every stored pair exactly once |
| Propagation.TextMapSet | propagation.go:115-117 | `Set` stores the value under the key, leaves every other entry alone, and grows the map by one only if the key was absent |
| Propagation.HeaderPairsExact | propagation.go:143-152 | a header offers each (key, value-in-list) pair as often as the value occurs under the key |
| Propagation.HeadersForeachKey | propagation.go:143-152 | `ForeachKey` makes one call per value, not per key; on success the visits are exactly the stored values |
| Propagation.HeadersSet | propagation.go:137-140 | `Set` replaces all values under the canonical key with the single value; other keys are untouched |
| Propagation.CarrierSet | propagation.go:115-140 | on either text carrier, `Set` adds the stored key, holds exactly the new value there, and keeps every other key's values |
| Propagation.CarrierPairsExact | propagation.go:105-152 | on either text carrier, in any order, every stored (key, value) is offered as often as it is stored, and nothing else is offered |
| Propagation.CarrierForeachKey | propagation.go:105-152 | `ForeachKey` on either carrier is the generic walk over its pairs; on success each stored (key, value) is visited as often as it is stored |
| Propagation.CarrierPairCount | propagation.go:105-152 | on either text carrier, each (key, value) is offered as often as the value is stored under exactly that key |
| Strconv.Atoi | testtracer_test.go:126-129 | a parse error carries the whole input, the empty string is a syntax error, and only a decimal numeral (optional sign, then digits only) parses, so any other string is an error |
| Strconv.ScanUintDigits | testtracer_test.go:126 | the digit loop succeeds only when every character it reads is a digit |
| Strconv.Itoa | testtracer_test.go:111 | the decimal form is a non-empty numeral that starts with `-` exactly for a negative number |
| Strings.LowerPointwise | testtracer_test.go:124 | lower-casing maps each character on its own and leaves no upper-case ASCII letter |
| Strconv.AtoiItoa | testtracer_test.go:111-130 | parsing the decimal form of any 64-bit `int` gives back that `int` |
| Header.LowerCanonicalKey | testtracer_test.go:124 | canonicalising a header key does not change its lower-case form, so the extractor still recognises it |
| Header.CanonicalKey | propagation.go:139 | the canonical form of a key has the same length and the same lower-case form |
| Header.Get | propagation_test.go:68 | the first value stored under the canonical key; "" when the key has no entry or an empty list |
| Header.GetAfterAdd | propagation_test.go:50-52 | after `Add`, `Get` of the same key returns the value added, unless a value was already stored first under that key |
| Header.Add | propagation_test.go:50-52 | `Add` appends the value under the canonical key and leaves other keys alone |
| Spans.Span.Context | span.go:37-38 | the no-op span's context is the no-op context and a test span's is the one it was started with; only a foreign span can return nil |
| Spans.Span.Tracer | span.go:24-38 | the no-op span reports the no-op tracer and a test span the test tracer; only a foreign span's tracer can have the context hook |
| Spans.WalkBaggage | span.go:12-18 | the handler is called on a prefix of the items, once each; if it never stops the walk, on every item; a stopped walk made at least one call; empty baggage means no call |
| Spans.WalkBaggageAppend | span.go:12-18 | walking `a + b` is walking `a`, then, only if the handler did not return false, walking `b` |
| Spans.WalkBaggageStopsAtFalse | span.go:15-17 | if the handler returns false on the k-th item, the walk ends there after exactly k calls |
| Spans.WalkBaggageAll | span.go:12-15 | a handler that always returns true is called once on every item, `|items|` calls in all |
| Spans.Step | span.go:24-38 | an active span accepts every call; a finished span accepts only `Context()`; a finish leads to Finished, and nothing leads back to Active |
| Spans.RunActive | span.go:26-29 | from Active, a call sequence is permitted exactly when nothing but `Context()` follows the first finish, and it ends Finished exactly when it contains a finish |
| Spans.RunFinished | span.go:27-38 | from Finished, only `Context()` calls are permitted, and there is no way back to Active |
| Spans.ToLogRecord | span.go:152-172 | a non-zero timestamp is kept and a zero one becomes "now"; the fields are `("event", Event)`, then `("payload", Payload)` only when the payload is non-nil |
| Spans.ToLogRecordRoundTrip | span.go:152-172 | the event and payload can be read back from the record, so the conversion loses nothing but a zero timestamp |
| Noop.StartSpan | noop.go:49-51 | whatever the name and options, the span is the default no-op span, whose context and tracer are the defaults |
| Noop.Inject | noop.go:54-56 | injection always succeeds and leaves the carrier unchanged |
| Noop.Extract | noop.go:59-61 | extraction always gives no context and `ErrSpanContextNotFound` |
| Noop.SetBaggageItem | noop.go:35 | the span comes back unchanged |
| Noop.BaggageItem | noop.go:36 | every baggage item reads as "" |
| Noop.SetTag | noop.go:37 | the span comes back unchanged |
| Noop.SetOperationName | noop.go:42 | the span comes back unchanged |
| Noop.BaggageNeverStored | noop.go:35-36 | a baggage item set on the no-op span still reads as "", under any key |
| Spans.ForeachBaggageItem | span.go:18 | the handler is called on a prefix of the context's items in order, on all of them unless it returned false; the no-op and test contexts call it never |
| Noop.ForeachBaggageNeverCalls | noop.go:31 | the no-op context's baggage walk never calls its handler |
| FakeTracer.NextFakeID | testtracer_test.go:17-22 | the counter advances by exactly one, wrapping from the largest `int` to the smallest |
| FakeTracer.FirstSpanId | testtracer_test.go:17-22 | with the counter at its initial 1, the first root span gets id 2 |
| FakeTracer.StartSpanWithOptions | testtracer_test.go:89-104 | the counter always advances; a root span takes the fresh id with no parent; otherwise the first reference's id with a parent; name, start time and tags are the bundle's |
| FakeTracer.StartSpan | testtracer_test.go:81-104 | stated over the option list: the id comes from the first non-nil reference option, else the fresh counter; the start time comes from the last `StartTime` option |
| FakeTracer.Inject | testtracer_test.go:107-115 | for the two text formats, exactly the fake-id key is set to the decimal id and nil is returned; any other format gives `ErrUnsupportedFormat` and an untouched carrier |
| FakeTracer.Extract | testtracer_test.go:118-137 | text formats give a parentless test context and at most a parse error; any other format gives no context and `ErrSpanContextNotFound` |
| FakeTracer.ExtractHandler | testtracer_test.go:123-133 | a key that is not the fake-id key up to case leaves the id and returns nil; a matching key with a parsable value sets the id; a matching key whose value fails to parse leaves the id and returns that parse error |
| FakeTracer.ExtractWalkErrors | testtracer_test.go:123-133 | the only error the extractor's walk returns is a parse error |
| FakeTracer.ForeignPairsIgnored | testtracer_test.go:124-132 | pairs whose key is not the fake-id key up to case leave the id alone and raise no error |
| FakeTracer.UniqueMatch | testtracer_test.go:123-133 | with a single matching pair among foreign ones, the walk succeeds exactly when its value parses, and then yields that value |
| FakeTracer.ExtractNoMatch | testtracer_test.go:118-134 | a carrier with no key matching up to case extracts id 0 with no error |
| FakeTracer.ExtractNonNumeral | testtracer_test.go:126-129 | a single matching value that is not a decimal numeral is never read as an id: extraction returns its parse error, carrying the value, and id 0 |
| FakeTracer.ExtractSingleValue | testtracer_test.go:118-134 | a carrier whose only matching key is the one `Inject` writes (`testprefix-fakeid`, or `Testprefix-Fakeid` in a header), holding one value, extracts that value's parse, or id 0 with the parse error; a header whose only matching key is spelled otherwise (say `TESTPREFIX-FAKEID`) is outside this lemma |
| FakeTracer.ExtractFailureKeepsZero | testtracer_test.go:126-130 | when the matching value does not parse, the id stays 0 |
| FakeTracer.InjectExtractRoundTrip | testtracer_test.go:107-136 | extracting with the same text format from what `Inject` wrote recovers the fake id, whatever foreign keys are present and whatever the visiting order |
| Scenarios.TextMapCarrierInject | propagation_test.go:9-29 | injecting a fresh span into a text map with two foreign keys gives three entries, with `Itoa(id)` under the fake-id key |
| Scenarios.TextMapCarrierExtract | propagation_test.go:31-47 | extracting from that text map with "42" under the fake-id key gives id 42 |
| Scenarios.HTTPHeaderInject | propagation_test.go:49-71 | injecting into a header with two foreign keys gives three keys, and `Get` of the fake-id key returns `Itoa(id)` |
| Scenarios.HeaderWithIdExtract | propagation_test.go:73-90 | a header with a parsable value added under the fake-id key extracts that value |
| Scenarios.HTTPHeaderExtract | propagation_test.go:73-90 | extracting from that header with "42" added under the fake-id key gives id 42 |
| Ambient.LatestBinding | gocontext.go:25 | the value found is that of a binding of the key that no later binding of the same key follows; nothing is found only when no binding has the key |
| Ambient.Lookup | gocontext.go:25 | `Value` returns the latest binding of the key along the chain, and finds nothing exactly when no ancestor binds the key; a key bound to nil, as `ContextWithSpan(ctx, nil)` binds it, is found as `Some(SpanValue(None))`, which `SpanFromContext` reads as nil like Go does |
| Tracers.StartSpan | tracer.go:37 | the no-op tracer returns the no-op span, the test tracer starts a test span, a foreign tracer runs its own code; only the test tracer advances the counter |
| GoContext.SpanFromContext | gocontext.go:24-30 | the span found is exactly the span value bound under the active-span key, when it holds one; a context where that key was never bound gives nil |
| GoContext.SpanFromContextSkipsOtherKeys | gocontext.go:24-30 | a value layered under another package's key does not hide the active span |
| GoContext.ContextWithSpan | gocontext.go:11-17 | the result holds the span, nil or not; the hook runs only for a non-nil span whose tracer has it, and its result is the base the span is bound onto |
| GoContext.ContextWithSpanKeepsOtherKeys | gocontext.go:11-17 | without a hook, attaching a span leaves every other key's value as it was |
| GoContext.Shadowing | gocontext.go:17-29 | attaching `b` after `a` makes `b` the active span; attaching nil hides any earlier span |
| GoContext.ForwardedOptions | gocontext.go:56-58 | with a parent span, the tracer receives the caller's options followed by `ChildOf(parent.Context())`; without one, the options unchanged |
| GoContext.ForwardedOptionsFold | gocontext.go:56-59 | the folded bundle the tracer sees is the caller's, with the parent reference last, or the caller's alone when there is no parent context |
| GoContext.StartSpanFromContextWithTracer | gocontext.go:55-61 | the returned context holds the returned span, which the tracer started from the forwarded options |
| GoContext.StartSpanFromContext | gocontext.go:45-47 | equal to the explicit-tracer form with the global tracer; before any registration, the no-op span in a context holding it |
| GoContext.TestRootFromContext | gocontext.go:55-61 | with the test tracer, no active span, and no non-nil reference from the caller, the new span is a root with the fresh id |
| GoContext.TestChildFromContext | gocontext.go:55-61 | with the test tracer, an active test span, and no non-nil reference from the caller, the new span is a child with the parent's id, and the returned context holds the child |
| GoContext.CallerReferenceComesFirst | gocontext.go:56-59 | a reference passed by the caller comes before the active span's, so the test tracer takes its id from the caller's reference |
| Global.InitialValid | globaltracer.go:8-10 | the initial cell is the no-op tracer, not registered |
| Global.GlobalTracer | globaltracer.go:20-24 | on a consistent cell, before anything is registered, the global tracer is the no-op tracer |
| Global.IsGlobalTracerRegistered | globaltracer.go:37-41 | the initial cell is not registered, and an unregistered consistent cell holds the no-op tracer |
| Global.SetGlobalTracer | globaltracer.go:16-18 | afterwards the global tracer is the one given and is reported as registered |
| Global.InitGlobalTracer | globaltracer.go:33-35 | gives the same state as `SetGlobalTracer` |
| Global.StartSpan | globaltracer.go:26-29 | the registered tracer's `StartSpan`; before any registration, the no-op span with the counter untouched |
| Global.LastWriterWins | globaltracer.go:16-24 | after any run of registrations, the global tracer is the last one set, and it is registered |
| Global.SetAllValid | globaltracer.go:3-18 | registrations keep the cell consistent: an unregistered cell holds the no-op tracer |

## Left out

- The `Binary` format's `io.Writer`/`io.Reader` carriers: no implementation exists in these files. Carriers that implement neither text-map interface are an opaque `OtherCarrier`.
- Caller-defined text-map carriers, types other than the two built-in carriers that implement `TextMapWriter` or `TextMapReader`, are not modelled: the test tracer would call their `Set` or `ForeachKey`, which the model has no code for, so its contracts cover the two built-in carriers only.
- User-defined `StartSpanOption` implementations: only the four option kinds of tracer.go are modelled.
- `Tag.Set`, `LogEvent`, `LogEventWithPayload`, `Log`, `LogFields`, `LogKV`: deprecated or no-op forwarding. In the lifecycle they appear only as calls that need an Active span.
- `FinishOptions` contents: `Finish` and `FinishWithOptions` are modelled only as the lifecycle transition.
- `testSpan.Equal` and the test span's mutators (which return the span unchanged): they are test helpers, not part of the propagation protocol.
- Foreign spans and tracers: their behaviour is `Tracers.ForeignCode`, given as a parameter.
- `net/http` internals: header canonicalisation follows net/textproto's rule, restricted to ASCII token bytes. The proofs rely only on `Header.LowerCanonicalKey`.
- `strings.ToLower` is ASCII-only: non-ASCII letters are left as they are. This matters for keys: Go's `strings.ToLower` maps the Kelvin sign U+212A to `k`, so Go's extractor reads a text-map key such as `testprefix-fa\u212Aeid` as the fake-id key, while `FakeTracer.ForeignPairsIgnored` and `FakeTracer.ExtractNoMatch` treat it as foreign.
- `strconv.Atoi`'s short-input fast path is not modelled separately: it yields the same results as the general path modelled here.
- `time.Time`: a time is an integer with zero meaning "unset", and `time.Now()` is a `now` argument. Monotonic readings and time zones are not modelled.
- Go map iteration order: an explicit `order` argument, required to list each key exactly once.
- Go type-assertion panics become preconditions: `sp.(testSpanContext)` and `carrier.(TextMapWriter)`/`(TextMapReader)` in the test tracer, and the test tracer's requirement that the first reference holds a test context.
- Nil carrier maps are not modelled: a carrier's map is always a value, and a nil map behaves as an empty one. In Go, `TextMapCarrier(nil).Set` and `HTTPHeadersCarrier(nil).Set` panic on the write into the nil map, so the test tracer's `Inject` into a nil carrier panics, where the model's succeeds.
- Nil tag values are not modelled: `Value` has no nil, so `Tag{k, nil}` and `Tags{k: nil}`, which store nil under `k`, cannot be written.
- Nil contexts are not modelled: `Context` has no nil, so the panic of `context.WithValue(nil, …)` inside `ContextWithSpan` does not arise.
- A nil tracer passed to `SetGlobalTracer` is not modelled: `TracerKind` has no nil value.
- Concurrency: the global registry and the fake-id counter are sequential state here, which is all the code supports, since it has no synchronisation.
- `context.Context` is reduced to `WithValue` chains and `Value` lookups. Cancellation and deadlines are not modelled.
- ext.go is not modelled as a file: the hook interface is the `hasContextHook` flag plus `Tracers.ForeignCode.contextWithSpanHook`.
- Global.StartSpan: the no-op result before registration is stated for consistent cells (`Global.Valid`), which every reachable cell is, by `Global.InitialValid` and `Global.SetAllValid`.

=== FILE: ambient.dfy ===
/**
 * The ambient cross-call context consumed by gocontext.go: Go's immutable,
 * copy-on-write `context.Context`, reduced to `WithValue` chains and
 * `Value` lookups.
 */
module Ambient {
  import opened Wrappers
  import opened Spans

  /** Context keys: the package's unexported active-span key, or a key of some other package. */
  datatype Key = ActiveSpanKey | UserKey(name: string)

  /** Context values: a `Span` interface value (`None` for nil), or anything else. */
  datatype CtxValue = SpanValue(span: Option<Span>) | UserValue(id: nat)

  /** `context.Background()` and the contexts `context.WithValue` derives from it. */
  datatype Context = Background | WithValue(parent: Context, key: Key, val: CtxValue)

  /** The keys bound anywhere along the chain. */
  function BoundKeys(ctx: Context): set<Key>
  {
    match ctx
    case Background => {}
    case WithValue(p, k, _) => BoundKeys(p) + {k}
  }

  /** The bindings along the chain, oldest first. */
  function Bindings(ctx: Context): seq<(Key, CtxValue)>
  {
    match ctx
    case Background => []
    case WithValue(p, k, v) => Bindings(p) + [(k, v)]
  }

  /** The value of the latest binding of the key in a list of bindings, if any. */
  function LatestBinding(bs: seq<(Key, CtxValue)>, key: Key): (r: Option<CtxValue>)
    ensures r.Some? ==> exists i :: 0 <= i < |bs| && bs[i] == (key, r.value) && forall j :: i < j < |bs| ==> bs[j].0 != key
    ensures r.None? ==> forall i :: 0 <= i < |bs| ==> bs[i].0 != key
    decreases |bs|
  {
    if |bs| == 0 then None
    else if bs[|bs| - 1].0 == key then Some(bs[|bs| - 1].1)
    else
      var r := LatestBinding(bs[..|bs| - 1], key);
      assert forall i :: 0 <= i < |bs| - 1 ==> bs[..|bs| - 1][i] == bs[i];
      r
  }

  /** `ctx.Value(key)`: the most recent binding of the key, or nil when no ancestor binds it. */
  function Lookup(ctx: Context, key: Key): (r: Option<CtxValue>)
    ensures r.None? <==> key !in BoundKeys(ctx)
    ensures r == LatestBinding(Bindings(ctx), key)
  {
    match ctx
    case Background => None
    case WithValue(p, k, v) => if k == key then Some(v) else Lookup(p, key)
  }
}

=== FILE: globaltracer.dfy ===
/** globaltracer.go: the process-wide tracer cell, threaded here as an explicit value. */
module Global {
  import opened Strconv
  import opened Spans
  import opened Options
  import Tracers
  import FakeTracer

  /** `registeredTracer` */
  datatype Registry = Registry(tracer: TracerKind, isRegistered: bool)

  /** The package's initial `globalTracer`. */
  const InitialRegistry: Registry := Registry(NoopTracer, false)

  /** Until something is registered the cell holds the no-op tracer. */
  predicate Valid(reg: Registry)
  {
    !reg.isRegistered ==> reg.tracer == NoopTracer
  }

  /** `SetGlobalTracer`: overwrites the whole cell. */
  function SetGlobalTracer(reg: Registry, t: TracerKind): (r: Registry)
    ensures GlobalTracer(r) == t && IsGlobalTracerRegistered(r)
    ensures Valid(r)
  {
    Registry(t, true)
  }

  /** `GlobalTracer` */
  function GlobalTracer(reg: Registry): (t: TracerKind)
    ensures Valid(reg) && !reg.isRegistered ==> t == NoopTracer
  {
    reg.tracer
  }

  /** `IsGlobalTracerRegistered` */
  function IsGlobalTracerRegistered(reg: Registry): (b: bool)
    ensures reg == InitialRegistry ==> !b
    ensures Valid(reg) && !b ==> reg.tracer == NoopTracer
  {
    reg.isRegistered
  }

  /** `InitGlobalTracer`, the deprecated spelling of `SetGlobalTracer`. */
  function InitGlobalTracer(reg: Registry, t: TracerKind): (r: Registry)
    ensures r == SetGlobalTracer(reg, t)
  {
    SetGlobalTracer(reg, t)
  }

  /**
   * The package-level `StartSpan`: the registered tracer's `StartSpan`;
   * before any registration, the no-op span, leaving the counter alone.
   */
  function StartSpan(reg: Registry, name: string, opts: seq<StartSpanOption>, source: Int64, foreign: Tracers.ForeignCode): (r: FakeTracer.Started)
    requires Tracers.CanStart(reg.tracer, opts)
    ensures Valid(reg) && !IsGlobalTracerRegistered(reg) ==> r == FakeTracer.Started(NoopSpan, source)
    ensures IsGlobalTracerRegistered(reg) ==> r == Tracers.StartSpan(GlobalTracer(reg), name, opts, source, foreign)
  {
    Tracers.StartSpan(reg.tracer, name, opts, source, foreign)
  }

  /** A run of `SetGlobalTracer` calls, in order. */
  function SetAll(reg: Registry, ts: seq<TracerKind>): Registry
    decreases |ts|
  {
    if |ts| == 0 then reg else SetAll(SetGlobalTracer(reg, ts[0]), ts[1..])
  }

  lemma InitialValid()
    ensures Valid(InitialRegistry)
    ensures GlobalTracer(InitialRegistry) == NoopTracer && !IsGlobalTracerRegistered(InitialRegistry)
  {
  }

  /** Last writer wins: after any run of registrations the cell holds the last tracer, registered. */
  lemma {:induction false} LastWriterWins(reg: Registry, ts: seq<TracerKind>)
    requires |ts| > 0
    ensures GlobalTracer(SetAll(reg, ts)) == ts[|ts| - 1]
    ensures IsGlobalTracerRegistered(SetAll(reg, ts))
    decreases |ts|
  {
    if |ts| > 1 {
      LastWriterWins(SetGlobalTracer(reg, ts[0]), ts[1..]);
    }
  }

  /** Registrations keep the cell valid: a cell still unregistered holds the no-op tracer. */
  lemma {:induction false} SetAllValid(reg: Registry, ts: seq<TracerKind>)
    requires Valid(reg)
    ensures Valid(SetAll(reg, ts))
    ensures |ts| == 0 ==> SetAll(reg, ts) == reg
    decreases |ts|
  {
    if |ts| > 0 {
      SetAllValid(SetGlobalTracer(reg, ts[0]), ts[1..]);
    }
  }
}

=== FILE: gocontext.dfy ===
/**
 * gocontext.go: attaching the active span to an ambient context, reading
 * it back, and starting a child of whatever span is active.
 */
module GoContext {
  import opened Wrappers
  import opened Strconv
  import opened Spans
  import opened Options
  import opened Ambient
  import Tracers
  import Global
  import FakeTracer

  /** `SpanFromContext`: the span under the active-span key, or nil. */
  function SpanFromContext(ctx: Context): (r: Option<Span>)
    ensures r.Some? ==> Lookup(ctx, ActiveSpanKey) == Some(SpanValue(r))
    ensures ActiveSpanKey !in BoundKeys(ctx) ==> r.None?
    ensures Lookup(ctx, ActiveSpanKey).Some? && Lookup(ctx, ActiveSpanKey).value.SpanValue? ==> r == Lookup(ctx, ActiveSpanKey).value.span
  {
    match Lookup(ctx, ActiveSpanKey)
    case Some(SpanValue(Some(s))) => Some(s)
    case _ => None
  }

  /** Whether attaching the span runs its tracer's `ContextWithSpanHook`: only for a non-nil span whose tracer implements the extension. */
  predicate RunsHook(span: Option<Span>)
  {
    span.Some? && span.value.Tracer().HasContextHook()
  }

  /**
   * `ContextWithSpan`: the hook (when it runs) produces the base context,
   * and the span, nil or not, is bound on top of it.
   */
  function ContextWithSpan(ctx: Context, span: Option<Span>, foreign: Tracers.ForeignCode): (r: Context)
    ensures SpanFromContext(r) == span
    ensures r.WithValue? && r.key == ActiveSpanKey
    ensures !RunsHook(span) ==> r.parent == ctx
    ensures RunsHook(span) ==> r.parent == foreign.contextWithSpanHook(span.value.Tracer(), ctx, span.value)
  {
    var base := if RunsHook(span) then foreign.contextWithSpanHook(span.value.Tracer(), ctx, span.value) else ctx;
    WithValue(base, ActiveSpanKey, SpanValue(span))
  }

  /** Without a hook, attaching a span leaves every other key as it was. */
  lemma ContextWithSpanKeepsOtherKeys(ctx: Context, span: Option<Span>, foreign: Tracers.ForeignCode, name: string)
    requires !RunsHook(span)
    ensures Lookup(ContextWithSpan(ctx, span, foreign), UserKey(name)) == Lookup(ctx, UserKey(name))
  {
  }

  /** Another package's `WithValue` layers do not hide the active span: it is found through them. */
  lemma SpanFromContextSkipsOtherKeys(ctx: Context, name: string, v: CtxValue)
    ensures SpanFromContext(WithValue(ctx, UserKey(name), v)) == SpanFromContext(ctx)
  {
  }

  /** The latest attachment shadows earlier ones; attaching nil hides them. */
  lemma Shadowing(ctx: Context, a: Option<Span>, b: Option<Span>, foreign: Tracers.ForeignCode)
    ensures SpanFromContext(ContextWithSpan(ContextWithSpan(ctx, a, foreign), b, foreign)) == b
    ensures SpanFromContext(ContextWithSpan(ctx, None, foreign)).None?
  {
  }

  /** The options the tracer receives: the caller's, then `ChildOf` the active span's context if there is an active span. */
  function ForwardedOptions(ctx: Context, opts: seq<StartSpanOption>): (r: seq<StartSpanOption>)
    ensures SpanFromContext(ctx).None? ==> r == opts
    ensures SpanFromContext(ctx).Some? ==> r == opts + [Reference(ChildOf(SpanFromContext(ctx).value.Context()))]
  {
    match SpanFromContext(ctx)
    case None => opts
    case Some(parent) => opts + [Reference(ChildOf(parent.Context()))]
  }

  /**
   * The parent reference is appended after the caller's options: the
   * folded bundle is the caller's, plus one trailing `ChildOf` reference
   * when the active span has a context.
   */
  lemma ForwardedOptionsFold(ctx: Context, opts: seq<StartSpanOption>)
    ensures var parent := SpanFromContext(ctx);
            if parent.Some? && parent.value.Context().Some? then
              Fold(ForwardedOptions(ctx, opts)) == Fold(opts).(references := Fold(opts).references + [ChildOf(parent.value.Context())])
            else
              Fold(ForwardedOptions(ctx, opts)) == Fold(opts)
  {
    var parent := SpanFromContext(ctx);
    if parent.Some? {
      if parent.value.Context().Some? {
        FoldAppendReference(opts, ChildOf(parent.value.Context()));
      } else {
        FoldAppendNilReference(opts, ChildOfRef);
      }
    }
  }

  /** A started span, the context holding it, and the counter after starting it. */
  datatype FromContext = FromContext(span: Span, ctx: Context, source: Int64)

  /**
   * `StartSpanFromContextWithTracer`: the tracer starts the span from the
   * forwarded options, and the returned context holds the new span on top
   * of the caller's.
   */
  function StartSpanFromContextWithTracer(ctx: Context, tracer: TracerKind, name: string, opts: seq<StartSpanOption>, source: Int64, foreign: Tracers.ForeignCode): (r: FromContext)
    requires Tracers.CanStart(tracer, ForwardedOptions(ctx, opts))
    ensures SpanFromContext(r.ctx) == Some(r.span)
    ensures FakeTracer.Started(r.span, r.source) == Tracers.StartSpan(tracer, name, ForwardedOptions(ctx, opts), source, foreign)
    ensures !RunsHook(Some(r.span)) ==> r.ctx == WithValue(ctx, ActiveSpanKey, SpanValue(Some(r.span)))
  {
    var started := Tracers.StartSpan(tracer, name, ForwardedOptions(ctx, opts), source, foreign);
    FromContext(started.span, ContextWithSpan(ctx, Some(started.span), foreign), started.source)
  }

  /** `StartSpanFromContext`: the same, with the registered global tracer; before registration, the no-op span. */
  function StartSpanFromContext(ctx: Context, reg: Global.Registry, name: string, opts: seq<StartSpanOption>, source: Int64, foreign: Tracers.ForeignCode): (r: FromContext)
    requires Tracers.CanStart(Global.GlobalTracer(reg), ForwardedOptions(ctx, opts))
    ensures r == StartSpanFromContextWithTracer(ctx, Global.GlobalTracer(reg), name, opts, source, foreign)
    ensures Global.Valid(reg) && !Global.IsGlobalTracerRegistered(reg) ==>
              r == FromContext(NoopSpan, WithValue(ctx, ActiveSpanKey, SpanValue(Some(NoopSpan))), source)
  {
    StartSpanFromContextWithTracer(ctx, Global.GlobalTracer(reg), name, opts, source, foreign)
  }

  /** With the test tracer and no active span, a caller without references gets a root span with a fresh id. */
  lemma TestRootFromContext(ctx: Context, name: string, opts: seq<StartSpanOption>, source: Int64, foreign: Tracers.ForeignCode)
    requires SpanFromContext(ctx).None?
    requires NonNilReferences(opts) == []
    ensures Tracers.CanStart(TestTracer, ForwardedOptions(ctx, opts))
    ensures var r := StartSpanFromContextWithTracer(ctx, TestTracer, name, opts, source, foreign);
            && r.span.Context() == Some(TestSpanContext(false, FakeTracer.NextFakeID(source)))
            && r.source == FakeTracer.NextFakeID(source)
            && SpanFromContext(r.ctx) == Some(r.span)
  {
    FoldReferences(opts);
  }

  /**
   * With the test tracer and an active test span, a caller without
   * references gets a child carrying the parent's id; the returned context
   * holds the child, not the parent.
   */
  lemma TestChildFromContext(ctx: Context, name: string, opts: seq<StartSpanOption>, source: Int64, foreign: Tracers.ForeignCode)
    requires SpanFromContext(ctx).Some?
    requires SpanFromContext(ctx).value.Context().Some? && SpanFromContext(ctx).value.Context().value.TestSpanContext?
    requires NonNilReferences(opts) == []
    ensures Tracers.CanStart(TestTracer, ForwardedOptions(ctx, opts))
    ensures var r := StartSpanFromContextWithTracer(ctx, TestTracer, name, opts, source, foreign);
            && r.span.Context() == Some(TestSpanContext(true, SpanFromContext(ctx).value.Context().value.fakeId))
            && Fold(ForwardedOptions(ctx, opts)).references == [ChildOf(SpanFromContext(ctx).value.Context())]
            && SpanFromContext(r.ctx) == Some(r.span)
  {
    FoldReferences(opts);
    ForwardedOptionsFold(ctx, opts);
  }

  /**
   * A reference the caller passes comes before the active span's: the
   * test tracer takes its id from the caller's first reference.
   */
  lemma CallerReferenceComesFirst(ctx: Context, name: string, opts: seq<StartSpanOption>, source: Int64, foreign: Tracers.ForeignCode)
    requires NonNilReferences(opts) != []
    requires NonNilReferences(opts)[0].referencedContext.Some? && NonNilReferences(opts)[0].referencedContext.value.TestSpanContext?
    ensures Tracers.CanStart(TestTracer, ForwardedOptions(ctx, opts))
    ensures StartSpanFromContextWithTracer(ctx, TestTracer, name, opts, source, foreign).span.Context()
              == Some(TestSpanContext(true, NonNilReferences(opts)[0].referencedContext.value.fakeId))
  {
    FoldReferences(opts);
    ForwardedOptionsFold(ctx, opts);
    FoldReferences(ForwardedOptions(ctx, opts));
  }
}

=== FILE: header.dfy ===
/**
 * The slice of `net/http.Header` that the HTTP-header carrier relies on:
 * a map from canonical keys to lists of values, key canonicalisation,
 * and `Add` / `Get` as callers use them to build and read a header set.
 * Canonicalisation follows net/textproto's rule; the propagation proofs
 * use only its case-insensitivity (`LowerCanonicalKey`).
 */
module Header {
  import opened Strings

  /** `http.Header`: each key maps to its list of values. */
  type Header = map<string, seq<string>>

  /** The bytes net/textproto accepts in a header field name (an HTTP token). */
  predicate ValidHeaderFieldByte(c: char)
  {
    ('a' <= c <= 'z') || ('A' <= c <= 'Z') || ('0' <= c <= '9') || c in "!#$%&'*+-.^_`|~"
  }

  /** Upper-case the first letter and every letter after a hyphen, lower-case the rest. */
  function CanonicalLoop(s: string, upper: bool): (r: string)
    ensures |r| == |s|
    decreases |s|
  {
    if |s| == 0 then []
    else
      var c := s[0];
      var c' := if upper && 'a' <= c <= 'z' then UpperChar(c)
                else if !upper && 'A' <= c <= 'Z' then LowerChar(c)
                else c;
      [c'] + CanonicalLoop(s[1..], c' == '-')
  }

  /** `http.CanonicalHeaderKey`: a key holding a non-token byte is returned unchanged. */
  function CanonicalKey(s: string): (r: string)
    ensures |r| == |s|
    ensures Lower(r) == Lower(s)
  {
    LowerCanonicalLoop(s, true);
    if forall i :: 0 <= i < |s| ==> ValidHeaderFieldByte(s[i]) then CanonicalLoop(s, true) else s
  }

  lemma {:induction false} LowerCanonicalLoop(s: string, upper: bool)
    ensures Lower(CanonicalLoop(s, upper)) == Lower(s)
    decreases |s|
  {
    if |s| > 0 {
      var r := CanonicalLoop(s, upper);
      LowerCanonicalLoop(s[1..], r[0] == '-');
      assert r[1..] == CanonicalLoop(s[1..], r[0] == '-');
      assert LowerChar(r[0]) == LowerChar(s[0]);
    }
  }

  /** Canonicalisation changes only letter case, so case-insensitive comparison sees through it. */
  lemma LowerCanonicalKey(s: string)
    ensures Lower(CanonicalKey(s)) == Lower(s)
  {
  }

  /** `Header.Add`: appends a value under the canonical key. */
  function Add(h: Header, key: string, val: string): (r: Header)
    ensures CanonicalKey(key) in r
    ensures r[CanonicalKey(key)] == (if CanonicalKey(key) in h then h[CanonicalKey(key)] else []) + [val]
    ensures forall k :: k != CanonicalKey(key) ==> (k in r <==> k in h) && (k in h ==> r[k] == h[k])
  {
    var k := CanonicalKey(key);
    h[k := (if k in h then h[k] else []) + [val]]
  }

  /** `Header.Get`: the first value under the canonical key, or "" when there is none. */
  function Get(h: Header, key: string): (r: string)
    ensures CanonicalKey(key) !in h ==> r == ""
    ensures r != "" ==> r in h[CanonicalKey(key)]
    ensures CanonicalKey(key) in h && |h[CanonicalKey(key)]| > 0 ==> r == h[CanonicalKey(key)][0]
  {
    var k := CanonicalKey(key);
    if k in h && |h[k]| > 0 then h[k][0] else ""
  }

  /** `Get` after `Add` under the same key: the value added, unless an earlier value already comes first. */
  lemma GetAfterAdd(h: Header, key: string, val: string)
    ensures Get(Add(h, key, val), key) ==
              if CanonicalKey(key) in h && |h[CanonicalKey(key)]| > 0 then h[CanonicalKey(key)][0] else val
  {
  }
}

=== FILE: noop.dfy ===
/** noop.go: the tracer, span and span context that do nothing and cost nothing. */
module Noop {
  import opened Wrappers
  import opened Spans
  import opened Options
  import opened Propagation

  const DefaultNoopSpanContext: SpanContext := NoopSpanContext
  const DefaultNoopSpan: Span := NoopSpan
  const DefaultNoopTracer: TracerKind := NoopTracer

  /** `NoopTracer.StartSpan`: the one default no-op span, whatever the name or options. */
  function StartSpan(operationName: string, opts: seq<StartSpanOption>): (r: Span)
    ensures r == DefaultNoopSpan
    ensures r.Context() == Some(DefaultNoopSpanContext) && r.Tracer() == DefaultNoopTracer
  {
    DefaultNoopSpan
  }

  /** `NoopTracer.Inject`: nil, and the carrier is left as it was. */
  function Inject(sc: Option<SpanContext>, format: Format, carrier: Carrier): (r: Injected)
    ensures r.err.None? && r.carrier == carrier
  {
    Injected(carrier, None)
  }

  /** `NoopTracer.Extract`: never finds a span context. */
  function Extract(format: Format, carrier: Carrier): (r: Extracted<SpanContext>)
    ensures r.context.None? && r.err == Some(ErrSpanContextNotFound)
  {
    Extracted(None, Some(ErrSpanContextNotFound))
  }

  /** `noopSpan.SetBaggageItem`: returns the span itself, storing nothing. */
  function SetBaggageItem(s: Span, key: string, val: string): (r: Span)
    requires s.NoopSpan?
    ensures r == s
  {
    s
  }

  /** `noopSpan.BaggageItem`: always the empty string. */
  function BaggageItem(s: Span, key: string): (r: string)
    requires s.NoopSpan?
    ensures r == ""
  {
    ""
  }

  /** `noopSpan.SetTag`: returns the span itself. */
  function SetTag(s: Span, key: string, value: Value): (r: Span)
    requires s.NoopSpan?
    ensures r == s
  {
    s
  }

  /** `noopSpan.SetOperationName`: returns the span itself. */
  function SetOperationName(s: Span, operationName: string): (r: Span)
    requires s.NoopSpan?
    ensures r == s
  {
    s
  }

  /** Baggage set on a no-op span is never read back. */
  lemma BaggageNeverStored(key: string, val: string, other: string)
    ensures BaggageItem(SetBaggageItem(DefaultNoopSpan, key, val), other) == ""
  {
  }

  /** The no-op context's `ForeachBaggageItem` never calls its handler. */
  lemma ForeachBaggageNeverCalls<S>(handler: (S, string, string) -> (S, bool), s: S)
    ensures ForeachBaggageItem(DefaultNoopSpanContext, handler, s) == BaggageWalk(s, [], false)
  {
  }
}

=== FILE: propagation.dfy ===
/**
 * The propagation contract of propagation.go: the error sentinels, the
 * built-in format tokens, and the two text-map carriers with their `Set`
 * and `ForeachKey`. Go map iteration order is an explicit `order`
 * argument that enumerates the keys; what is proved holds for every order.
 */
module Propagation {
  import opened Wrappers
  import opened Strconv
  import Header

  /** The five sentinel errors, plus the errors that flow through unchanged: a parse error and a caller handler's error. */
  datatype Error =
    | ErrUnsupportedFormat
    | ErrSpanContextNotFound
    | ErrInvalidSpanContext
    | ErrInvalidCarrier
    | ErrSpanContextCorrupted
    | ParseFailure(numError: NumError)
    | HandlerFailure(code: nat)

  const Sentinels: seq<Error> := [ErrUnsupportedFormat, ErrSpanContextNotFound, ErrInvalidSpanContext, ErrInvalidCarrier, ErrSpanContextCorrupted]

  /** Callers can branch on the kind: the sentinels are pairwise distinct. */
  lemma SentinelsDistinct()
    ensures |Sentinels| == 5
    ensures forall i, j :: 0 <= i < j < |Sentinels| ==> Sentinels[i] != Sentinels[j]
  {
  }

  type Byte = x: int | 0 <= x < 256

  /** A format token: a `BuiltinFormat` byte, or a token some other package defined. */
  datatype Format = BuiltinFormat(code: Byte) | CustomFormat(id: nat)

  const Binary: Format := BuiltinFormat(0)
  const TextMap: Format := BuiltinFormat(1)
  const HTTPHeaders: Format := BuiltinFormat(2)

  lemma BuiltinFormatsDistinct()
    ensures Binary.code == 0 && TextMap.code == 1 && HTTPHeaders.code == 2
    ensures Binary != TextMap && TextMap != HTTPHeaders && Binary != HTTPHeaders
  {
  }

  /** The formats whose carrier must be a `TextMapWriter` / `TextMapReader`. */
  predicate IsTextFormat(f: Format)
  {
    f == TextMap || f == HTTPHeaders
  }

  // ---------------------------------------------------------------------------
  // ForeachKey: a walk over (key, value) pairs that stops at the first error
  // ---------------------------------------------------------------------------

  type Pair = (string, string)

  /** The outcome of `ForeachKey`: the handler's final state, the error returned, and the pairs the handler was called on. */
  datatype Walk<S> = Walk(state: S, err: Option<Error>, visited: seq<Pair>)

  /**
   * Calls the handler on each pair in turn; a non-nil error from the
   * handler ends the walk and is returned. The handler's side effects are
   * its state `S`.
   */
  function Foreach<S>(pairs: seq<Pair>, handler: (S, string, string) -> (S, Option<Error>), s: S): (w: Walk<S>)
    ensures |w.visited| <= |pairs| && w.visited == pairs[..|w.visited|]
    ensures w.err.None? ==> w.visited == pairs
    ensures w.err.Some? ==> |w.visited| > 0
    decreases |pairs|
  {
    if |pairs| == 0 then Walk(s, None, [])
    else
      var (s1, e) := handler(s, pairs[0].0, pairs[0].1);
      if e.Some? then Walk(s1, e, [pairs[0]])
      else
        var w := Foreach(pairs[1..], handler, s1);
        Walk(w.state, w.err, [pairs[0]] + w.visited)
  }

  /** Walking `a + b` is walking `a`, then, only if that returned nil, walking `b`. */
  lemma {:induction false} ForeachAppend<S>(a: seq<Pair>, b: seq<Pair>, handler: (S, string, string) -> (S, Option<Error>), s: S)
    ensures Foreach(a + b, handler, s) ==
              var wa := Foreach(a, handler, s);
              if wa.err.Some? then wa
              else
                var wb := Foreach(b, handler, wa.state);
                Walk(wb.state, wb.err, wa.visited + wb.visited)
    decreases |a|
  {
    if |a| == 0 {
      assert a + b == b;
    } else {
      assert (a + b)[0] == a[0];
      assert (a + b)[1..] == a[1..] + b;
      var (s1, e) := handler(s, a[0].0, a[0].1);
      if e.None? {
        ForeachAppend(a[1..], b, handler, s1);
        var wa1 := Foreach(a[1..], handler, s1);
        if wa1.err.None? {
          var wb := Foreach(b, handler, wa1.state);
          assert [a[0]] + (wa1.visited + wb.visited) == ([a[0]] + wa1.visited) + wb.visited;
        }
      }
    }
  }

  /** The first handler error ends the walk: it is returned and no later pair is visited. */
  lemma ForeachStopsAtError<S>(pre: seq<Pair>, p: Pair, post: seq<Pair>, handler: (S, string, string) -> (S, Option<Error>), s: S)
    requires Foreach(pre, handler, s).err.None?
    requires handler(Foreach(pre, handler, s).state, p.0, p.1).1.Some?
    ensures Foreach(pre + [p] + post, handler, s) ==
              var r := handler(Foreach(pre, handler, s).state, p.0, p.1);
              Walk(r.0, r.1, pre + [p])
  {
    assert pre + [p] + post == pre + ([p] + post);
    ForeachAppend(pre, [p] + post, handler, s);
    assert ([p] + post)[0] == p;
  }

  /** A handler that never fails sees every pair once, in order, and the walk returns nil. */
  lemma {:induction false} ForeachNoError<S>(pairs: seq<Pair>, handler: (S, string, string) -> (S, Option<Error>), s: S)
    requires forall t: S, i :: 0 <= i < |pairs| ==> handler(t, pairs[i].0, pairs[i].1).1.None?
    ensures Foreach(pairs, handler, s).err.None?
    ensures Foreach(pairs, handler, s).visited == pairs
    decreases |pairs|
  {
    if |pairs| > 0 {
      var s1 := handler(s, pairs[0].0, pairs[0].1).0;
      assert forall i :: 0 <= i < |pairs[1..]| ==> pairs[1..][i] == pairs[i + 1];
      ForeachNoError(pairs[1..], handler, s1);
    }
  }

  // ---------------------------------------------------------------------------
  // Enumerating a map's keys
  // ---------------------------------------------------------------------------

  predicate Distinct(order: seq<string>)
  {
    forall i, j :: 0 <= i < j < |order| ==> order[i] != order[j]
  }

  /** `order` is one of the orders in which Go's `range` may visit a map with these keys. */
  predicate Enumerates(order: seq<string>, keys: set<string>)
  {
    && Distinct(order)
    && (forall k :: k in order ==> k in keys)
    && (forall k :: k in keys ==> k in order)
  }

  lemma DistinctTail(order: seq<string>)
    requires Distinct(order) && |order| > 0
    ensures Distinct(order[1..]) && order[0] !in order[1..]
  {
  }

  // ---------------------------------------------------------------------------
  // TextMapCarrier
  // ---------------------------------------------------------------------------

  /** The pairs `range` yields over a string map, keys in the given order. */
  function TextPairs(m: map<string, string>, order: seq<string>): (ps: seq<Pair>)
    requires forall k :: k in order ==> k in m
    ensures |ps| == |order|
    decreases |order|
  {
    if |order| == 0 then [] else [(order[0], m[order[0]])] + TextPairs(m, order[1..])
  }

  lemma {:induction false} TextPairsCount(m: map<string, string>, order: seq<string>, k: string, v: string)
    requires forall k :: k in order ==> k in m
    requires Distinct(order)
    ensures multiset(TextPairs(m, order))[(k, v)] == if k in order && m[k] == v then 1 else 0
    decreases |order|
  {
    if |order| > 0 {
      DistinctTail(order);
      TextPairsCount(m, order[1..], k, v);
      assert TextPairs(m, order) == [(order[0], m[order[0]])] + TextPairs(m, order[1..]);
      assert k in order <==> k == order[0] || k in order[1..];
    }
  }

  /** Every entry of the map occurs exactly once among the pairs, and nothing else does. */
  lemma TextPairsExact(m: map<string, string>, order: seq<string>)
    requires Enumerates(order, m.Keys)
    ensures forall k, v :: multiset(TextPairs(m, order))[(k, v)] == if k in m && m[k] == v then 1 else 0
  {
    forall k, v
      ensures multiset(TextPairs(m, order))[(k, v)] == if k in m && m[k] == v then 1 else 0
    {
      TextPairsCount(m, order, k, v);
    }
  }

  /** `TextMapCarrier.ForeachKey` */
  function TextMapForeachKey<S>(c: map<string, string>, order: seq<string>, handler: (S, string, string) -> (S, Option<Error>), s: S): (w: Walk<S>)
    requires Enumerates(order, c.Keys)
    ensures |w.visited| <= |order| && w.visited == TextPairs(c, order)[..|w.visited|]
    ensures w.err.None? ==> forall k, v :: multiset(w.visited)[(k, v)] == if k in c && c[k] == v then 1 else 0
  {
    TextPairsExact(c, order);
    Foreach(TextPairs(c, order), handler, s)
  }

  /** `TextMapCarrier.Set` */
  function TextMapSet(c: map<string, string>, key: string, val: string): (r: map<string, string>)
    ensures key in r && r[key] == val
    ensures forall k :: k != key ==> (k in r <==> k in c)
    ensures forall k :: k in c && k != key ==> r[k] == c[k]
    ensures |r| == if key in c then |c| else |c| + 1
  {
    var r := c[key := val];
    assert r.Keys == c.Keys + {key};
    r
  }

  // ---------------------------------------------------------------------------
  // HTTPHeadersCarrier
  // ---------------------------------------------------------------------------

  /** One pair per value listed under the key. */
  function ValuePairs(key: string, vals: seq<string>): (ps: seq<Pair>)
    ensures |ps| == |vals|
    decreases |vals|
  {
    if |vals| == 0 then [] else [(key, vals[0])] + ValuePairs(key, vals[1..])
  }

  /** The pairs the nested `range` yields over a header map, keys in the given order. */
  function HeaderPairs(h: Header.Header, order: seq<string>): seq<Pair>
    requires forall k :: k in order ==> k in h
    decreases |order|
  {
    if |order| == 0 then [] else ValuePairs(order[0], h[order[0]]) + HeaderPairs(h, order[1..])
  }

  lemma {:induction false} ValuePairsCount(key: string, vals: seq<string>, k: string, v: string)
    ensures multiset(ValuePairs(key, vals))[(k, v)] == if k == key then multiset(vals)[v] else 0
    decreases |vals|
  {
    if |vals| > 0 {
      ValuePairsCount(key, vals[1..], k, v);
      assert vals == [vals[0]] + vals[1..];
    }
  }

  lemma {:induction false} HeaderPairsCount(h: Header.Header, order: seq<string>, k: string, v: string)
    requires forall k :: k in order ==> k in h
    requires Distinct(order)
    ensures multiset(HeaderPairs(h, order))[(k, v)] == if k in order then multiset(h[k])[v] else 0
    decreases |order|
  {
    if |order| > 0 {
      DistinctTail(order);
      HeaderPairsCount(h, order[1..], k, v);
      ValuePairsCount(order[0], h[order[0]], k, v);
      assert k in order <==> k == order[0] || k in order[1..];
    }
  }

  /** One pair per (key, value-in-list): a value listed n times under a key occurs n times. */
  lemma HeaderPairsExact(h: Header.Header, order: seq<string>)
    requires Enumerates(order, h.Keys)
    ensures forall k, v :: multiset(HeaderPairs(h, order))[(k, v)] == if k in h then multiset(h[k])[v] else 0
  {
    forall k, v
      ensures multiset(HeaderPairs(h, order))[(k, v)] == if k in h then multiset(h[k])[v] else 0
    {
      HeaderPairsCount(h, order, k, v);
    }
  }

  /** `HTTPHeadersCarrier.ForeachKey`: one handler call per value, not per key. */
  function HeadersForeachKey<S>(c: Header.Header, order: seq<string>, handler: (S, string, string) -> (S, Option<Error>), s: S): (w: Walk<S>)
    requires Enumerates(order, c.Keys)
    ensures |w.visited| <= |HeaderPairs(c, order)| && w.visited == HeaderPairs(c, order)[..|w.visited|]
    ensures w.err.None? ==> forall k, v :: multiset(w.visited)[(k, v)] == if k in c then multiset(c[k])[v] else 0
  {
    HeaderPairsExact(c, order);
    Foreach(HeaderPairs(c, order), handler, s)
  }

  /** `HTTPHeadersCarrier.Set`: replaces every value under the canonical key with the single value. */
  function HeadersSet(c: Header.Header, key: string, val: string): (r: Header.Header)
    ensures Header.CanonicalKey(key) in r && r[Header.CanonicalKey(key)] == [val]
    ensures forall k :: k != Header.CanonicalKey(key) ==> (k in r <==> k in c)
    ensures forall k :: k in c && k != Header.CanonicalKey(key) ==> r[k] == c[k]
    ensures |r| == if Header.CanonicalKey(key) in c then |c| else |c| + 1
  {
    var ck := Header.CanonicalKey(key);
    var r := c[ck := [val]];
    assert r.Keys == c.Keys + {ck};
    r
  }

  // ---------------------------------------------------------------------------
  // Carriers as Inject/Extract receive them
  // ---------------------------------------------------------------------------

  /**
   * A carrier value: one of the two built-in text-map carriers, or a carrier
   * that implements neither `TextMapWriter` nor `TextMapReader` (an `io.Writer`,
   * say). Caller-defined types implementing those interfaces are not modelled.
   */
  datatype Carrier =
    | TextMapCarrier(m: map<string, string>)
    | HTTPHeadersCarrier(h: Header.Header)
    | OtherCarrier(id: nat)
  {
    /** Whether the carrier implements `TextMapWriter` and `TextMapReader`. */
    predicate IsTextMap()
    {
      TextMapCarrier? || HTTPHeadersCarrier?
    }

    function Keys(): set<string>
    {
      match this
      case TextMapCarrier(m) => m.Keys
      case HTTPHeadersCarrier(h) => h.Keys
      case OtherCarrier(_) => {}
    }

    /** The values stored under exactly this key. */
    function Values(key: string): (vs: seq<string>)
      ensures |vs| > 0 ==> key in Keys()
    {
      match this
      case TextMapCarrier(m) => if key in m then [m[key]] else []
      case HTTPHeadersCarrier(h) => if key in h then h[key] else []
      case OtherCarrier(_) => []
    }

    /** The key under which `Set(key, _)` stores its value. */
    function StoredKey(key: string): string
    {
      if HTTPHeadersCarrier? then Header.CanonicalKey(key) else key
    }
  }

  /** `TextMapWriter.Set` on either carrier. */
  function CarrierSet(c: Carrier, key: string, val: string): (r: Carrier)
    requires c.IsTextMap()
    ensures r.IsTextMap() && r.TextMapCarrier? == c.TextMapCarrier?
    ensures r.Keys() == c.Keys() + {c.StoredKey(key)}
    ensures r.Values(c.StoredKey(key)) == [val]
    ensures forall k :: k != c.StoredKey(key) ==> r.Values(k) == c.Values(k)
  {
    match c
    case TextMapCarrier(m) => TextMapCarrier(TextMapSet(m, key, val))
    case HTTPHeadersCarrier(h) => HTTPHeadersCarrier(HeadersSet(h, key, val))
  }

  /** The (key, value) pairs `ForeachKey` offers, keys in the given order. */
  function CarrierPairs(c: Carrier, order: seq<string>): seq<Pair>
    requires c.IsTextMap() && Enumerates(order, c.Keys())
  {
    match c
    case TextMapCarrier(m) => TextPairs(m, order)
    case HTTPHeadersCarrier(h) => HeaderPairs(h, order)
  }

  /** Each (key, value) pair is offered as often as the value is stored under the key. */
  lemma CarrierPairCount(c: Carrier, order: seq<string>, k: string, v: string)
    requires c.IsTextMap() && Enumerates(order, c.Keys())
    ensures multiset(CarrierPairs(c, order))[(k, v)] == multiset(c.Values(k))[v]
  {
    match c
    case TextMapCarrier(m) =>
      TextPairsCount(m, order, k, v);
    case HTTPHeadersCarrier(h) =>
      HeaderPairsCount(h, order, k, v);
  }

  /** Every pair `ForeachKey` offers is an entry of the carrier. */
  lemma CarrierPairsStored(c: Carrier, order: seq<string>, i: int)
    requires c.IsTextMap() && Enumerates(order, c.Keys())
    requires 0 <= i < |CarrierPairs(c, order)|
    ensures CarrierPairs(c, order)[i].1 in c.Values(CarrierPairs(c, order)[i].0)
    ensures CarrierPairs(c, order)[i].0 in c.Keys()
  {
    var pairs := CarrierPairs(c, order);
    var (k, v) := pairs[i];
    assert pairs[i] in multiset(pairs);
    CarrierPairCount(c, order, k, v);
  }

  /** Every stored (key, value) is offered as often as it is stored, whatever the order. */
  lemma CarrierPairsExact(c: Carrier, order: seq<string>)
    requires c.IsTextMap() && Enumerates(order, c.Keys())
    ensures forall k, v :: multiset(CarrierPairs(c, order))[(k, v)] == multiset(c.Values(k))[v]
  {
    forall k, v
      ensures multiset(CarrierPairs(c, order))[(k, v)] == multiset(c.Values(k))[v]
    {
      CarrierPairCount(c, order, k, v);
    }
  }

  /** `TextMapReader.ForeachKey` on either carrier. */
  function CarrierForeachKey<S>(c: Carrier, order: seq<string>, handler: (S, string, string) -> (S, Option<Error>), s: S): (w: Walk<S>)
    requires c.IsTextMap() && Enumerates(order, c.Keys())
    ensures w == Foreach(CarrierPairs(c, order), handler, s)
    ensures w.err.None? ==> forall k, v :: multiset(w.visited)[(k, v)] == multiset(c.Values(k))[v]
  {
    CarrierPairsExact(c, order);
    match c
    case TextMapCarrier(m) => TextMapForeachKey(m, order, handler, s)
    case HTTPHeadersCarrier(h) => HeadersForeachKey(h, order, handler, s)
  }

  /** What `Inject` leaves behind: the carrier after any writes, and the returned error. */
  datatype Injected = Injected(carrier: Carrier, err: Option<Error>)

  /** What `Extract` returns: a possibly nil span context and an error. */
  datatype Extracted<C> = Extracted(context: Option<C>, err: Option<Error>)
}

=== FILE: scenarios.dfy ===
/**
 * The carrier scenarios of propagation_test.go, as lemmas over the model:
 * a fresh test span injected into a text map or an HTTP header that
 * already holds two foreign entries, and the id "42" extracted from each.
 */
module Scenarios {
  import opened Wrappers
  import opened Strings
  import opened Strconv
  import opened Spans
  import opened Propagation
  import Header
  import FakeTracer

  /** The two foreign entries every scenario starts from. */
  const ForeignEntries: map<string, string> := map["NotOT" := "blah", "opname" := "AlsoNotOT"]

  /** The same two entries added to an empty `http.Header`. */
  function ForeignHeader(): Header.Header
  {
    Header.Add(Header.Add(map[], "NotOT", "blah"), "opname", "AlsoNotOT")
  }

  lemma FakeIdKeyLength()
    ensures |FakeTracer.FakeIdKey| == 17
  {
  }

  /** The header's two keys are the canonical forms of the keys added. */
  lemma ForeignHeaderKeys()
    ensures ForeignHeader().Keys == {Header.CanonicalKey("NotOT"), Header.CanonicalKey("opname")}
    ensures |ForeignHeader()| == 2
    ensures Header.CanonicalKey(FakeTracer.FakeIdKey) !in ForeignHeader()
  {
    var a := Header.CanonicalKey("NotOT");
    var b := Header.CanonicalKey("opname");
    var c := Header.CanonicalKey(FakeTracer.FakeIdKey);
    assert |a| == 5 && |b| == 6 && |c| == 17;
    assert a != b;
  }

  /** A root test span injected into the text map adds exactly one entry, the decimal id under the fake-id key. */
  lemma TextMapCarrierInject(source: Int64)
    ensures var span := FakeTracer.StartSpan("someSpan", [], source).span;
            var r := FakeTracer.Inject(span.spanContext, TextMap, TextMapCarrier(ForeignEntries));
            && r.err.None?
            && r.carrier.TextMapCarrier?
            && |r.carrier.m| == 3
            && FakeTracer.FakeIdKey in r.carrier.m
            && r.carrier.m[FakeTracer.FakeIdKey] == Itoa(span.spanContext.fakeId)
  {
    FakeIdKeyLength();
    var span := FakeTracer.StartSpan("someSpan", [], source).span;
    var r := FakeTracer.Inject(span.spanContext, TextMap, TextMapCarrier(ForeignEntries));
    assert FakeTracer.FakeIdKey !in ForeignEntries;
    assert r.carrier.m == TextMapSet(ForeignEntries, FakeTracer.FakeIdKey, Itoa(span.spanContext.fakeId));
  }

  /** No key but the fake-id key itself reads as the fake-id key up to case. */
  lemma ForeignKeysDoNotMatch(k: string)
    requires |k| != |FakeTracer.FakeIdKey|
    ensures Lower(k) != FakeTracer.FakeIdKey
  {
  }

  /** Extracting from the text map with "42" under the fake-id key gives id 42, in any visiting order. */
  lemma TextMapCarrierExtract(order: seq<string>)
    requires Enumerates(order, ForeignEntries[FakeTracer.FakeIdKey := "42"].Keys)
    ensures FakeTracer.Extract(TextMap, TextMapCarrier(ForeignEntries[FakeTracer.FakeIdKey := "42"]), order)
              == Extracted(Some(TestSpanContext(false, 42)), None)
  {
    var carrier := TextMapCarrier(ForeignEntries[FakeTracer.FakeIdKey := "42"]);
    FakeIdKeyLength();
    assert carrier.Keys() == {"NotOT", "opname", FakeTracer.FakeIdKey};
    forall k | k in carrier.Keys() && Lower(k) == FakeTracer.FakeIdKey
      ensures k == carrier.StoredKey(FakeTracer.FakeIdKey)
    {
      if k != FakeTracer.FakeIdKey {
        ForeignKeysDoNotMatch(k);
      }
    }
    assert Atoi("42") == Success(42);
    FakeTracer.ExtractSingleValue(TextMap, carrier, order, "42");
  }

  /** A root test span injected into the header adds exactly one key; `Get` of the fake-id key returns the decimal id. */
  lemma HTTPHeaderInject(source: Int64)
    ensures var span := FakeTracer.StartSpan("someSpan", [], source).span;
            var r := FakeTracer.Inject(span.spanContext, HTTPHeaders, HTTPHeadersCarrier(ForeignHeader()));
            && r.err.None?
            && r.carrier.HTTPHeadersCarrier?
            && |r.carrier.h| == 3
            && Header.Get(r.carrier.h, FakeTracer.FakeIdKey) == Itoa(span.spanContext.fakeId)
  {
    ForeignHeaderKeys();
    var span := FakeTracer.StartSpan("someSpan", [], source).span;
    var r := FakeTracer.Inject(span.spanContext, HTTPHeaders, HTTPHeadersCarrier(ForeignHeader()));
    assert r.carrier.h == HeadersSet(ForeignHeader(), FakeTracer.FakeIdKey, Itoa(span.spanContext.fakeId));
  }

  /** The header with "42" added under the fake-id key: the extractor reads that one value and no other key. */
  lemma HeaderWithIdFacts(val: string)
    ensures var carrier := HTTPHeadersCarrier(Header.Add(ForeignHeader(), FakeTracer.FakeIdKey, val));
            && FakeTracer.NoForeignMatch(carrier)
            && carrier.Values(carrier.StoredKey(FakeTracer.FakeIdKey)) == [val]
  {
    var h := Header.Add(ForeignHeader(), FakeTracer.FakeIdKey, val);
    var carrier := HTTPHeadersCarrier(h);
    var key := Header.CanonicalKey(FakeTracer.FakeIdKey);
    ForeignHeaderKeys();
    FakeIdKeyLength();
    assert h.Keys == ForeignHeader().Keys + {key};
    forall k | k in carrier.Keys() && Lower(k) == FakeTracer.FakeIdKey
      ensures k == carrier.StoredKey(FakeTracer.FakeIdKey)
    {
    }
  }

  /** Extracting from the header with a value added under the fake-id key gives the parse of that value, in any visiting order. */
  lemma HeaderWithIdExtract(val: string, order: seq<string>)
    requires Enumerates(order, Header.Add(ForeignHeader(), FakeTracer.FakeIdKey, val).Keys)
    ensures Atoi(val).Success? ==>
              FakeTracer.Extract(HTTPHeaders, HTTPHeadersCarrier(Header.Add(ForeignHeader(), FakeTracer.FakeIdKey, val)), order)
                == Extracted(Some(TestSpanContext(false, Atoi(val).value)), None)
  {
    HeaderWithIdFacts(val);
    FakeTracer.ExtractSingleValue(HTTPHeaders, HTTPHeadersCarrier(Header.Add(ForeignHeader(), FakeTracer.FakeIdKey, val)), order, val);
  }

  lemma FortyTwo()
    ensures Atoi("42") == Success(42)
  {
  }

  /** Extracting from the header with "42" added under the fake-id key gives id 42, in any visiting order. */
  lemma HTTPHeaderExtract(order: seq<string>)
    requires Enumerates(order, Header.Add(ForeignHeader(), FakeTracer.FakeIdKey, "42").Keys)
    ensures FakeTracer.Extract(HTTPHeaders, HTTPHeadersCarrier(Header.Add(ForeignHeader(), FakeTracer.FakeIdKey, "42")), order)
              == Extracted(Some(TestSpanContext(false, 42)), None)
  {
    FortyTwo();
    HeaderWithIdExtract("42", order);
  }
}

=== FILE: span.dfy ===
/**
 * The span and span-context contract of span.go, closed over the
 * implementations this model knows: the no-op tracer, the reference test
 * tracer, and tracers from outside the package ("foreign"), whose code is
 * not part of this model.
 */
module Spans {
  import opened Wrappers
  import opened Strconv

  /** `time.Time` as an opaque instant; `ZeroTime` stands for Go's zero `time.Time`. */
  type Time = int

  const ZeroTime: Time := 0

  /** `time.Time.IsZero` */
  predicate IsZero(t: Time)
  {
    t == ZeroTime
  }

  /** A tag, payload or log value: Go's non-nil `interface{}`. */
  datatype Value = StringValue(s: string) | IntValue(i: int) | BoolValue(b: bool) | ObjectValue(id: nat)

  /** The `SpanContext` implementations: immutable once created. */
  datatype SpanContext =
    | NoopSpanContext
    | TestSpanContext(hasParent: bool, fakeId: Int64)
    | ForeignSpanContext(id: nat, baggage: seq<(string, string)>)
  {
    /** The baggage items; neither the no-op nor the test context carries any. */
    function Baggage(): seq<(string, string)>
    {
      match this
      case ForeignSpanContext(_, items) => items
      case _ => []
    }
  }

  /**
   * The `Tracer` implementations. A foreign tracer may implement
   * `TracerContextWithSpanExtension` (ext.go); the no-op and test tracers do not.
   */
  datatype TracerKind = NoopTracer | TestTracer | ForeignTracer(name: string, hasContextHook: bool)
  {
    /** Whether the tracer implements `TracerContextWithSpanExtension`. */
    predicate HasContextHook()
    {
      ForeignTracer? && hasContextHook
    }
  }

  /** The `Span` implementations; a test span keeps what it was started with. */
  datatype Span =
    | NoopSpan
    | TestSpan(spanContext: SpanContext, operationName: string, startTime: Time, tags: Option<map<string, Value>>)
    | ForeignSpan(tracer: TracerKind, context: Option<SpanContext>)
  {
    /** `Span.Context()`: valid in every state; a foreign span may return a nil context. */
    function Context(): (r: Option<SpanContext>)
      ensures !ForeignSpan? ==> r.Some?
      ensures NoopSpan? ==> r == Some(NoopSpanContext)
      ensures TestSpan? ==> r == Some(spanContext)
    {
      match this
      case NoopSpan => Some(NoopSpanContext)
      case TestSpan(sc, _, _, _) => Some(sc)
      case ForeignSpan(_, sc) => sc
    }

    /** `Span.Tracer()`: the tracer that created the span. */
    function Tracer(): (r: TracerKind)
      ensures r.HasContextHook() ==> ForeignSpan?
      ensures NoopSpan? ==> r == NoopTracer
      ensures TestSpan? ==> r == TestTracer
    {
      match this
      case NoopSpan => NoopTracer
      case TestSpan(_, _, _, _) => TestTracer
      case ForeignSpan(t, _) => t
    }
  }

  /** A baggage item: key and value. */
  type Item = (string, string)

  /**
   * The outcome of `ForeachBaggageItem`: the handler's final state, the
   * items it was called on, and whether it stopped the walk by returning false.
   */
  datatype BaggageWalk<S> = BaggageWalk(state: S, visited: seq<Item>, stopped: bool)
  {
    /** How often the handler was called. */
    function Calls(): nat
    {
      |visited|
    }
  }

  /**
   * `ForeachBaggageItem`: calls the handler once on each item in turn and
   * stops as soon as it returns false. Any order satisfies the contract,
   * so the items' order stands for the implementation's.
   */
  function WalkBaggage<S>(items: seq<Item>, handler: (S, string, string) -> (S, bool), s: S): (r: BaggageWalk<S>)
    ensures |r.visited| <= |items| && r.visited == items[..|r.visited|]
    ensures !r.stopped ==> r.visited == items
    ensures r.stopped ==> |r.visited| > 0
    ensures |items| == 0 ==> r == BaggageWalk(s, [], false)
    decreases |items|
  {
    if |items| == 0 then BaggageWalk(s, [], false)
    else
      var (s1, more) := handler(s, items[0].0, items[0].1);
      if !more then BaggageWalk(s1, [items[0]], true)
      else
        var w := WalkBaggage(items[1..], handler, s1);
        BaggageWalk(w.state, [items[0]] + w.visited, w.stopped)
  }

  /** Walking `a + b` is walking `a`, then, only if the handler did not stop it, walking `b`. */
  lemma {:induction false} WalkBaggageAppend<S>(a: seq<Item>, b: seq<Item>, handler: (S, string, string) -> (S, bool), s: S)
    ensures WalkBaggage(a + b, handler, s) ==
              var wa := WalkBaggage(a, handler, s);
              if wa.stopped then wa
              else
                var wb := WalkBaggage(b, handler, wa.state);
                BaggageWalk(wb.state, wa.visited + wb.visited, wb.stopped)
    decreases |a|
  {
    if |a| == 0 {
      assert a + b == b;
    } else {
      assert (a + b)[0] == a[0];
      assert (a + b)[1..] == a[1..] + b;
      var (s1, more) := handler(s, a[0].0, a[0].1);
      if more {
        WalkBaggageAppend(a[1..], b, handler, s1);
        var wa1 := WalkBaggage(a[1..], handler, s1);
        if !wa1.stopped {
          var wb := WalkBaggage(b, handler, wa1.state);
          assert [a[0]] + (wa1.visited + wb.visited) == ([a[0]] + wa1.visited) + wb.visited;
        }
      }
    }
  }

  /** A `false` from the handler on the k-th item ends the walk after exactly k calls. */
  lemma WalkBaggageStopsAtFalse<S>(pre: seq<Item>, p: Item, post: seq<Item>, handler: (S, string, string) -> (S, bool), s: S)
    requires !WalkBaggage(pre, handler, s).stopped
    requires !handler(WalkBaggage(pre, handler, s).state, p.0, p.1).1
    ensures WalkBaggage(pre + [p] + post, handler, s) ==
              BaggageWalk(handler(WalkBaggage(pre, handler, s).state, p.0, p.1).0, pre + [p], true)
    ensures WalkBaggage(pre + [p] + post, handler, s).Calls() == |pre| + 1
  {
    assert pre + [p] + post == pre + ([p] + post);
    WalkBaggageAppend(pre, [p] + post, handler, s);
    assert ([p] + post)[0] == p;
  }

  /** A handler that always returns true is called once on every item, in order. */
  lemma {:induction false} WalkBaggageAll<S>(items: seq<Item>, handler: (S, string, string) -> (S, bool), s: S)
    requires forall t: S, i :: 0 <= i < |items| ==> handler(t, items[i].0, items[i].1).1
    ensures !WalkBaggage(items, handler, s).stopped
    ensures WalkBaggage(items, handler, s).visited == items
    ensures WalkBaggage(items, handler, s).Calls() == |items|
    decreases |items|
  {
    if |items| > 0 {
      var s1 := handler(s, items[0].0, items[0].1).0;
      assert forall i :: 0 <= i < |items[1..]| ==> items[1..][i] == items[i + 1];
      WalkBaggageAll(items[1..], handler, s1);
    }
  }

  /** `SpanContext.ForeachBaggageItem` over the context's items. */
  function ForeachBaggageItem<S>(sc: SpanContext, handler: (S, string, string) -> (S, bool), s: S): (r: BaggageWalk<S>)
    ensures |r.visited| <= |sc.Baggage()| && r.visited == sc.Baggage()[..|r.visited|]
    ensures !r.stopped ==> r.visited == sc.Baggage()
    ensures !sc.ForeignSpanContext? ==> r == BaggageWalk(s, [], false)
  {
    WalkBaggage(sc.Baggage(), handler, s)
  }

  // ---------------------------------------------------------------------------
  // Span lifecycle (the doc comments of the Span interface)
  // ---------------------------------------------------------------------------

  datatype SpanState = Active | Finished

  /** The methods of the `Span` interface. */
  datatype SpanCall =
    | CallFinish | CallFinishWithOptions | CallContext | CallSetOperationName | CallSetTag
    | CallLogFields | CallLogKV | CallSetBaggageItem | CallBaggageItem | CallTracer
    | CallLogEvent | CallLogEventWithPayload | CallLog
  {
    predicate IsFinish()
    {
      this == CallFinish || this == CallFinishWithOptions
    }
  }

  /**
   * One call on a span: `None` when the contract leaves the call undefined.
   * `Finish`/`FinishWithOptions` must be the last call except for `Context()`.
   */
  function Step(st: SpanState, call: SpanCall): (r: Option<SpanState>)
    ensures st == Active ==> r.Some?
    ensures st == Finished ==> (r.Some? <==> call == CallContext)
    ensures r == Some(Active) ==> st == Active && !call.IsFinish()
    ensures call.IsFinish() && r.Some? ==> r.value == Finished
  {
    match st
    case Active => Some(if call.IsFinish() then Finished else Active)
    case Finished => if call == CallContext then Some(Finished) else None
  }

  /** A sequence of calls on one span; `None` once a call is undefined. */
  function Run(st: SpanState, calls: seq<SpanCall>): Option<SpanState>
    decreases |calls|
  {
    if |calls| == 0 then Some(st)
    else
      match Step(st, calls[0])
      case None => None
      case Some(st1) => Run(st1, calls[1..])
  }

  /** The contract's rule: nothing but `Context()` follows a finishing call. */
  predicate Permitted(calls: seq<SpanCall>)
  {
    forall i, j :: 0 <= i < j < |calls| && calls[i].IsFinish() ==> calls[j] == CallContext
  }

  predicate Finishes(calls: seq<SpanCall>)
  {
    exists i :: 0 <= i < |calls| && calls[i].IsFinish()
  }

  /** A finished span stays finished and admits only `Context()`. */
  lemma {:induction false} RunFinished(calls: seq<SpanCall>)
    ensures Run(Finished, calls).Some? <==> forall i :: 0 <= i < |calls| ==> calls[i] == CallContext
    ensures Run(Finished, calls).Some? ==> Run(Finished, calls) == Some(Finished)
    decreases |calls|
  {
    if |calls| > 0 {
      RunFinished(calls[1..]);
      assert forall i :: 1 <= i < |calls| ==> calls[i] == calls[1..][i - 1];
    }
  }

  /**
   * A call sequence on a fresh span is defined exactly when it is permitted,
   * and then the span ends Finished exactly when some call finished it.
   */
  lemma {:induction false} RunActive(calls: seq<SpanCall>)
    ensures Run(Active, calls).Some? <==> Permitted(calls)
    ensures Permitted(calls) ==> Run(Active, calls) == Some(if Finishes(calls) then Finished else Active)
    decreases |calls|
  {
    if |calls| > 0 {
      var c := calls[0];
      var rest := calls[1..];
      assert forall i :: 1 <= i < |calls| ==> calls[i] == rest[i - 1];
      if c.IsFinish() {
        RunFinished(rest);
        assert Finishes(calls);
      } else {
        RunActive(rest);
        if Permitted(rest) {
          assert Permitted(calls) by {
            forall i, j | 0 <= i < j < |calls| && calls[i].IsFinish()
              ensures calls[j] == CallContext
            {
              assert i >= 1;
              assert rest[i - 1].IsFinish();
            }
          }
          assert Finishes(calls) <==> Finishes(rest) by {
            if Finishes(calls) {
              var i :| 0 <= i < |calls| && calls[i].IsFinish();
              assert rest[i - 1].IsFinish();
            }
            if Finishes(rest) {
              var i :| 0 <= i < |rest| && rest[i].IsFinish();
              assert calls[i + 1].IsFinish();
            }
          }
        } else {
          var i, j :| 0 <= i < j < |rest| && rest[i].IsFinish() && rest[j] != CallContext;
          assert calls[i + 1].IsFinish() && calls[j + 1] != CallContext;
        }
      }
    }
  }

  // ---------------------------------------------------------------------------
  // Deprecated log data
  // ---------------------------------------------------------------------------

  /** A structured log field: `log.String` or `log.Object`. */
  datatype Field = StringField(key: string, str: string) | ObjectField(key: string, obj: Value)

  datatype LogRecord = LogRecord(timestamp: Time, fields: seq<Field>)

  /** The deprecated log entry; `payload` is `None` for a nil payload. */
  datatype LogData = LogData(timestamp: Time, event: string, payload: Option<Value>)

  /**
   * `LogData.ToLogRecord`: a zero timestamp becomes `now` (the caller's
   * `time.Now()`); the event is always the first field, the payload the
   * second when present.
   */
  function ToLogRecord(ld: LogData, now: Time): (r: LogRecord)
    ensures !IsZero(ld.timestamp) ==> r.timestamp == ld.timestamp
    ensures IsZero(ld.timestamp) ==> r.timestamp == now
    ensures ld.payload.None? ==> r.fields == [StringField("event", ld.event)]
    ensures ld.payload.Some? ==> r.fields == [StringField("event", ld.event), ObjectField("payload", ld.payload.value)]
  {
    var ts := if IsZero(ld.timestamp) then now else ld.timestamp;
    if ld.payload == None then
      LogRecord(ts, [StringField("event", ld.event)])
    else
      LogRecord(ts, [StringField("event", ld.event), ObjectField("payload", ld.payload.value)])
  }

  /** Reads a record of the shape `ToLogRecord` produces back as log data. */
  function FromLogRecord(r: LogRecord): Option<LogData>
  {
    if |r.fields| == 1 && r.fields[0].StringField? && r.fields[0].key == "event" then
      Some(LogData(r.timestamp, r.fields[0].str, None))
    else if |r.fields| == 2 && r.fields[0].StringField? && r.fields[0].key == "event"
            && r.fields[1].ObjectField? && r.fields[1].key == "payload" then
      Some(LogData(r.timestamp, r.fields[0].str, Some(r.fields[1].obj)))
    else None
  }

  /** The conversion loses nothing but a zero timestamp, which becomes `now`. */
  lemma ToLogRecordRoundTrip(ld: LogData, now: Time)
    ensures FromLogRecord(ToLogRecord(ld, now)) == Some(ld.(timestamp := if IsZero(ld.timestamp) then now else ld.timestamp))
    ensures !IsZero(ld.timestamp) ==> FromLogRecord(ToLogRecord(ld, now)) == Some(ld)
  {
  }
}

=== FILE: strconv.dfy ===
/**
 * Go's 64-bit `int` and the two `strconv` conversions the reference tracer
 * uses to put a fake id on the wire: `Itoa` and `Atoi` (which is
 * `ParseInt(s, 10, 0)` on a 64-bit platform).
 */
module Strconv {
  import opened Wrappers

  const MinInt64: int := -0x8000_0000_0000_0000
  const MaxInt64: int := 0x7fff_ffff_ffff_ffff
  const MaxUint64: int := 0xffff_ffff_ffff_ffff

  /** Go's `int` on a 64-bit platform. */
  type Int64 = x: int | MinInt64 <= x <= MaxInt64

  /** Two's-complement reduction of an unbounded integer to Go's `int`. */
  function Wrap64(x: int): (r: Int64)
    ensures MinInt64 <= x <= MaxInt64 ==> r == x
    ensures (r - x) % 0x1_0000_0000_0000_0000 == 0
  {
    (x - MinInt64) % 0x1_0000_0000_0000_0000 + MinInt64
  }

  /** `strconv.ErrSyntax` and `strconv.ErrRange`. */
  datatype NumErrorKind = ErrSyntax | ErrRange

  /** `*strconv.NumError` as `Atoi` returns it: the whole input and the kind of failure. */
  datatype NumError = NumError(num: string, kind: NumErrorKind)

  predicate IsDigit(c: char)
  {
    '0' <= c <= '9'
  }

  function DigitValue(c: char): (d: nat)
    requires IsDigit(c)
    ensures d < 10
  {
    c as int - '0' as int
  }

  function DigitChar(d: nat): (c: char)
    requires d < 10
    ensures IsDigit(c) && DigitValue(c) == d
  {
    ('0' as int + d) as char
  }

  /** Decimal digits of a natural number, most significant first, without leading zeros. */
  function NatDigits(n: nat): (s: string)
    ensures |s| > 0
    ensures forall i :: 0 <= i < |s| ==> IsDigit(s[i])
    ensures |s| > 1 ==> s[0] != '0'
    decreases n
  {
    if n < 10 then [DigitChar(n)] else NatDigits(n / 10) + [DigitChar(n % 10)]
  }

  /** A decimal numeral as `Atoi` reads it: an optional sign, then one or more digits and nothing else. */
  predicate IsNumeral(s: string)
  {
    var body := if |s| > 0 && (s[0] == '+' || s[0] == '-') then s[1..] else s;
    |body| > 0 && forall i :: 0 <= i < |body| ==> IsDigit(body[i])
  }

  /** `strconv.Itoa`: an optional minus sign followed by the decimal digits. */
  function Itoa(n: int): (s: string)
    ensures |s| > 0
    ensures n < 0 <==> s[0] == '-'
    ensures IsNumeral(s)
  {
    if n < 0 then "-" + NatDigits(-n) else NatDigits(n)
  }

  /** The cutoff of `strconv.ParseUint` for base 10: an accumulator at or above it would overflow when multiplied by 10. */
  const Cutoff: nat := MaxUint64 / 10 + 1

  /**
   * The digit loop of `strconv.ParseUint(s, 10, 64)`: left to right, a
   * non-digit is a syntax error, an overflow of 64 bits a range error,
   * whichever comes first.
   */
  function ScanUint(s: string, n: nat): (r: Result<nat, NumErrorKind>)
    requires n <= MaxUint64
    ensures r.Success? ==> r.value <= MaxUint64
    decreases |s|
  {
    if |s| == 0 then Success(n)
    else if !IsDigit(s[0]) then Failure(ErrSyntax)
    else if n >= Cutoff then Failure(ErrRange)
    else
      var n1 := n * 10 + DigitValue(s[0]);
      if n1 > MaxUint64 then Failure(ErrRange) else ScanUint(s[1..], n1)
  }

  /** `strconv.ParseUint(s, 10, 64)`: the empty string is a syntax error. */
  function ParseUint(s: string): Result<nat, NumErrorKind>
  {
    if |s| == 0 then Failure(ErrSyntax) else ScanUint(s, 0)
  }

  /**
   * `strconv.Atoi` on a 64-bit platform: an optional sign, then
   * `ParseUint`, then the signed range check of `ParseInt`.
   */
  function Atoi(s: string): (r: Result<Int64, NumError>)
    ensures r.Failure? ==> r.error.num == s
    ensures |s| == 0 ==> r == Failure(NumError(s, ErrSyntax))
    ensures r.Success? ==> IsNumeral(s)
  {
    ScanUintDigits(if |s| > 0 && (s[0] == '+' || s[0] == '-') then s[1..] else s, 0);
    if |s| == 0 then Failure(NumError(s, ErrSyntax))
    else
      var neg := s[0] == '-';
      var body := if s[0] == '+' || s[0] == '-' then s[1..] else s;
      match ParseUint(body)
      case Failure(kind) => Failure(NumError(s, kind))
      case Success(un) =>
        if !neg && un > MaxInt64 then Failure(NumError(s, ErrRange))
        else if neg && un > -MinInt64 then Failure(NumError(s, ErrRange))
        else
          var v: Int64 := if neg then -(un as int) else un;
          Success(v)
  }

  /** The digit loop succeeds only on a string of digits; anything else is a syntax or range error. */
  lemma {:induction false} ScanUintDigits(s: string, n: nat)
    requires n <= MaxUint64
    ensures ScanUint(s, n).Success? ==> forall i :: 0 <= i < |s| ==> IsDigit(s[i])
    decreases |s|
  {
    if |s| > 0 && IsDigit(s[0]) && n < Cutoff && n * 10 + DigitValue(s[0]) <= MaxUint64 {
      ScanUintDigits(s[1..], n * 10 + DigitValue(s[0]));
      assert forall i :: 1 <= i < |s| ==> s[i] == s[1..][i - 1];
    }
  }

  lemma {:induction false} ScanUintSnoc(s: string, c: char, n: nat)
    requires n <= MaxUint64
    ensures ScanUint(s + [c], n) ==
              match ScanUint(s, n)
              case Success(m) => ScanUint([c], m)
              case Failure(k) => Failure(k)
    decreases |s|
  {
    if |s| == 0 {
      assert s + [c] == [c];
    } else {
      assert (s + [c])[0] == s[0];
      assert (s + [c])[1..] == s[1..] + [c];
      if IsDigit(s[0]) && n < Cutoff && n * 10 + DigitValue(s[0]) <= MaxUint64 {
        ScanUintSnoc(s[1..], c, n * 10 + DigitValue(s[0]));
      }
    }
  }

  /** Scanning the digits of `n` gives back `n` whenever `n` fits in 64 unsigned bits. */
  lemma {:induction false} ScanNatDigits(n: nat)
    requires n <= MaxUint64
    ensures ScanUint(NatDigits(n), 0) == Success(n)
    decreases n
  {
    if n >= 10 {
      var q := n / 10;
      assert q < Cutoff;
      ScanNatDigits(q);
      ScanUintSnoc(NatDigits(q), DigitChar(n % 10), 0);
      assert q * 10 + n % 10 == n;
    }
  }

  /** `Atoi` inverts `Itoa` on every Go `int`. */
  lemma AtoiItoa(n: Int64)
    ensures Atoi(Itoa(n)) == Success(n)
  {
    var s := Itoa(n);
    if n < 0 {
      var m: nat := -(n as int);
      ScanNatDigits(m);
      assert s[1..] == NatDigits(m);
    } else {
      ScanNatDigits(n);
    }
  }
}

=== FILE: strings.dfy ===
/**
 * ASCII case mapping: `LowerChar` is the part of Go's `strings.ToLower` the
 * model needs, and both directions are net/textproto's one-letter case flips.
 */
module Strings {

  function LowerChar(c: char): char
  {
    if 'A' <= c <= 'Z' then (c as int + 32) as char else c
  }

  function UpperChar(c: char): char
  {
    if 'a' <= c <= 'z' then (c as int - 32) as char else c
  }

  /** `strings.ToLower`, restricted to ASCII letters. */
  function Lower(s: string): (r: string)
    ensures |r| == |s|
    decreases |s|
  {
    if |s| == 0 then [] else [LowerChar(s[0])] + Lower(s[1..])
  }

  /** `Lower` maps each character on its own, and leaves no upper-case ASCII letter behind. */
  lemma {:induction false} LowerPointwise(s: string)
    ensures forall i :: 0 <= i < |s| ==> Lower(s)[i] == LowerChar(s[i])
    ensures forall i :: 0 <= i < |s| ==> !('A' <= Lower(s)[i] <= 'Z')
    decreases |s|
  {
    if |s| > 0 {
      LowerPointwise(s[1..]);
      assert forall i :: 1 <= i < |s| ==> Lower(s)[i] == Lower(s[1..])[i - 1];
    }
  }

  /** A string without upper-case ASCII letters is its own lower-case form. */
  lemma {:induction false} LowerNoUpper(s: string)
    requires forall i :: 0 <= i < |s| ==> !('A' <= s[i] <= 'Z')
    ensures Lower(s) == s
    decreases |s|
  {
    if |s| > 0 {
      LowerNoUpper(s[1..]);
    }
  }
}

=== FILE: testtracer.dfy ===
/**
 * The reference test tracer of testtracer_test.go: spans carry a fake id
 * drawn from a package-level counter (threaded here as `source`), and
 * `Inject`/`Extract` move that id through a text-map carrier as a decimal
 * string under the key "testprefix-fakeid".
 */
module FakeTracer {
  import opened Wrappers
  import opened Strings
  import opened Strconv
  import opened Spans
  import opened Options
  import opened Propagation
  import Header

  const TestHTTPHeaderPrefix: string := "testprefix-"

  /** The one key the test tracer writes and, compared case-insensitively, reads. */
  const FakeIdKey: string := TestHTTPHeaderPrefix + "fakeid"

  /** The initial value of `fakeIDSource`. */
  const InitialFakeIdSource: Int64 := 1

  /** `nextFakeID`: the counter's next value, with Go's `int` wrap-around. */
  function NextFakeID(source: Int64): (r: Int64)
    ensures source < MaxInt64 ==> r == source + 1
    ensures source == MaxInt64 ==> r == MinInt64
  {
    Wrap64(source + 1)
  }

  /** A started span and the counter after starting it. */
  datatype Started = Started(span: Span, source: Int64)

  /** The first reference's context is a `testSpanContext` (else `startSpanWithOptions` panics). */
  predicate FirstReferenceIsTest(refs: seq<SpanReference>)
  {
    |refs| > 0 ==> refs[0].referencedContext.Some? && refs[0].referencedContext.value.TestSpanContext?
  }

  /**
   * `testTracer.startSpanWithOptions`: the counter always advances; a span
   * with references inherits the first reference's id and has a parent,
   * a root span takes the fresh counter value.
   */
  function StartSpanWithOptions(name: string, o: StartSpanOptions, source: Int64): (r: Started)
    requires FirstReferenceIsTest(o.references)
    ensures r.source == NextFakeID(source)
    ensures r.span.TestSpan? && r.span.spanContext.TestSpanContext?
    ensures r.span.operationName == name && r.span.startTime == o.startTime && r.span.tags == o.tags
    ensures r.span.spanContext.hasParent <==> |o.references| > 0
    ensures |o.references| == 0 ==> r.span.spanContext.fakeId == r.source
    ensures |o.references| > 0 ==> r.span.spanContext.fakeId == o.references[0].referencedContext.value.fakeId
  {
    var next := NextFakeID(source);
    var id := if |o.references| > 0 then o.references[0].referencedContext.value.fakeId else next;
    Started(TestSpan(TestSpanContext(|o.references| > 0, id), name, o.startTime, o.tags), next)
  }

  /**
   * `testTracer.StartSpan`: folds the options in call order, then starts.
   * Stated over the option list itself: the id comes from the first
   * non-nil reference option, the start time from the last `StartTime`.
   */
  function StartSpan(name: string, opts: seq<StartSpanOption>, source: Int64): (r: Started)
    requires FirstReferenceIsTest(Fold(opts).references)
    ensures r.source == NextFakeID(source)
    ensures r.span.TestSpan? && r.span.operationName == name
    ensures r.span.startTime == LastStartTime(opts, ZeroTime)
    ensures r.span.tags == Fold(opts).tags
    ensures NonNilReferences(opts) == [] ==> r.span.spanContext == TestSpanContext(false, r.source)
    ensures NonNilReferences(opts) != [] ==>
              && NonNilReferences(opts)[0].referencedContext.Some?
              && NonNilReferences(opts)[0].referencedContext.value.TestSpanContext?
              && r.span.spanContext == TestSpanContext(true, NonNilReferences(opts)[0].referencedContext.value.fakeId)
  {
    FoldReferences(opts);
    ApplyAllStartTime(opts, EmptyOptions);
    StartSpanWithOptions(name, Fold(opts), source)
  }

  /**
   * `testTracer.Inject`: for the two text formats, sets exactly the fake-id
   * key to the decimal id; any other format is unsupported and the carrier
   * is not touched.
   */
  function Inject(sc: SpanContext, format: Format, carrier: Carrier): (r: Injected)
    requires sc.TestSpanContext?
    requires IsTextFormat(format) ==> carrier.IsTextMap()
    ensures IsTextFormat(format) ==>
              && r.err.None?
              && r.carrier.IsTextMap() && r.carrier.TextMapCarrier? == carrier.TextMapCarrier?
              && r.carrier.Keys() == carrier.Keys() + {carrier.StoredKey(FakeIdKey)}
              && r.carrier.Values(carrier.StoredKey(FakeIdKey)) == [Itoa(sc.fakeId)]
              && forall k :: k != carrier.StoredKey(FakeIdKey) ==> r.carrier.Values(k) == carrier.Values(k)
    ensures !IsTextFormat(format) ==> r.err == Some(ErrUnsupportedFormat) && r.carrier == carrier
  {
    if IsTextFormat(format) then Injected(CarrierSet(carrier, FakeIdKey, Itoa(sc.fakeId)), None)
    else Injected(carrier, Some(ErrUnsupportedFormat))
  }

  /** A pair the extractor reads: its key is the fake-id key up to case. */
  predicate Matches(p: Pair)
  {
    Lower(p.0) == FakeIdKey
  }

  /** The closure `Extract` hands to `ForeachKey`; its state is `sm.FakeID`. */
  function ExtractHandler(id: Int64, key: string, val: string): (r: (Int64, Option<Error>))
    ensures !Matches((key, val)) ==> r == (id, None)
    ensures Matches((key, val)) && Atoi(val).Success? ==> r == (Atoi(val).value, None)
    ensures Matches((key, val)) && Atoi(val).Failure? ==> r == (id, Some(ParseFailure(Atoi(val).error)))
    ensures r.1.Some? ==> r.0 == id && r.1 == Some(ParseFailure(Atoi(val).error))
  {
    if Lower(key) == FakeIdKey then
      match Atoi(val)
      case Success(i) => (i, None)
      case Failure(e) => (id, Some(ParseFailure(e)))
    else (id, None)
  }

  /** The only error the extractor's walk can return is a parse error. */
  lemma {:induction false} ExtractWalkErrors(pairs: seq<Pair>, id: Int64)
    ensures Foreach(pairs, ExtractHandler, id).err.Some? ==> Foreach(pairs, ExtractHandler, id).err.value.ParseFailure?
    decreases |pairs|
  {
    if |pairs| > 0 {
      var (id1, e) := ExtractHandler(id, pairs[0].0, pairs[0].1);
      if e.None? {
        ExtractWalkErrors(pairs[1..], id1);
      }
    }
  }

  /**
   * `testTracer.Extract`: for the two text formats, walks the carrier and
   * returns a parentless test context with the id found (0 if none) and the
   * walk's error; any other format yields (nil, ErrSpanContextNotFound).
   */
  function Extract(format: Format, carrier: Carrier, order: seq<string>): (r: Extracted<SpanContext>)
    requires IsTextFormat(format) ==> carrier.IsTextMap() && Enumerates(order, carrier.Keys())
    ensures !IsTextFormat(format) ==> r.context.None? && r.err == Some(ErrSpanContextNotFound)
    ensures IsTextFormat(format) ==> r.context.Some? && r.context.value.TestSpanContext? && !r.context.value.hasParent
    ensures IsTextFormat(format) && r.err.Some? ==> r.err.value.ParseFailure?
  {
    if IsTextFormat(format) then
      ExtractWalkErrors(CarrierPairs(carrier, order), 0);
      var w := CarrierForeachKey(carrier, order, ExtractHandler, 0);
      Extracted(Some(TestSpanContext(false, w.state)), w.err)
    else
      Extracted(None, Some(ErrSpanContextNotFound))
  }

  // ---------------------------------------------------------------------------
  // Extraction facts
  // ---------------------------------------------------------------------------

  lemma FakeIdKeyIsLower()
    ensures Lower(FakeIdKey) == FakeIdKey
  {
    LowerNoUpper(FakeIdKey);
  }

  /** Foreign pairs are passed over: the id stays and no error arises. */
  lemma {:induction false} ForeignPairsIgnored(pairs: seq<Pair>, id: Int64)
    requires forall i :: 0 <= i < |pairs| ==> !Matches(pairs[i])
    ensures Foreach(pairs, ExtractHandler, id) == Walk(id, None, pairs)
    decreases |pairs|
  {
    if |pairs| > 0 {
      assert forall i :: 0 <= i < |pairs[1..]| ==> pairs[1..][i] == pairs[i + 1];
      ForeignPairsIgnored(pairs[1..], id);
    }
  }

  /** With a single matching pair, the walk's outcome is the parse of its value, whatever the foreign pairs around it. */
  lemma {:induction false} UniqueMatch(pairs: seq<Pair>, p: Pair, id: Int64)
    requires Matches(p)
    requires multiset(pairs)[p] == 1
    requires forall i :: 0 <= i < |pairs| && Matches(pairs[i]) ==> pairs[i] == p
    ensures Foreach(pairs, ExtractHandler, id).err.None? <==> Atoi(p.1).Success?
    ensures Atoi(p.1).Success? ==> Foreach(pairs, ExtractHandler, id).state == Atoi(p.1).value
    ensures Atoi(p.1).Failure? ==> Foreach(pairs, ExtractHandler, id).err == Some(ParseFailure(Atoi(p.1).error))
    decreases |pairs|
  {
    assert pairs == [pairs[0]] + pairs[1..];
    var rest := pairs[1..];
    assert forall i :: 0 <= i < |rest| ==> rest[i] == pairs[i + 1];
    if pairs[0] == p {
      assert multiset(rest)[p] == 0;
      forall i | 0 <= i < |rest|
        ensures !Matches(rest[i])
      {
      }
      if Atoi(p.1).Success? {
        ForeignPairsIgnored(rest, Atoi(p.1).value);
      }
    } else {
      UniqueMatch(rest, p, id);
    }
  }

  /** A carrier without any key the extractor reads yields id 0 and no error. */
  lemma ExtractNoMatch(format: Format, carrier: Carrier, order: seq<string>)
    requires IsTextFormat(format) && carrier.IsTextMap() && Enumerates(order, carrier.Keys())
    requires forall k :: k in carrier.Keys() ==> Lower(k) != FakeIdKey
    ensures Extract(format, carrier, order) == Extracted(Some(TestSpanContext(false, 0)), None)
  {
    var pairs := CarrierPairs(carrier, order);
    forall i | 0 <= i < |pairs|
      ensures !Matches(pairs[i])
    {
      CarrierPairsStored(carrier, order, i);
    }
    ForeignPairsIgnored(pairs, 0);
  }

  /** The only key of the carrier the extractor reads is the one `Inject` writes. */
  predicate NoForeignMatch(carrier: Carrier)
  {
    forall k :: k in carrier.Keys() && Lower(k) == FakeIdKey ==> k == carrier.StoredKey(FakeIdKey)
  }

  lemma StoredKeyMatches(carrier: Carrier)
    ensures Lower(carrier.StoredKey(FakeIdKey)) == FakeIdKey
  {
    FakeIdKeyIsLower();
    Header.LowerCanonicalKey(FakeIdKey);
  }

  /** With one value under the written key and no other matching key, that value is the only matching pair offered. */
  lemma SingleMatchingPair(carrier: Carrier, order: seq<string>, val: string)
    requires carrier.IsTextMap() && Enumerates(order, carrier.Keys())
    requires NoForeignMatch(carrier)
    requires carrier.Values(carrier.StoredKey(FakeIdKey)) == [val]
    ensures Matches((carrier.StoredKey(FakeIdKey), val))
    ensures multiset(CarrierPairs(carrier, order))[(carrier.StoredKey(FakeIdKey), val)] == 1
    ensures forall i :: 0 <= i < |CarrierPairs(carrier, order)| && Matches(CarrierPairs(carrier, order)[i]) ==>
              CarrierPairs(carrier, order)[i] == (carrier.StoredKey(FakeIdKey), val)
  {
    var key := carrier.StoredKey(FakeIdKey);
    var pairs := CarrierPairs(carrier, order);
    StoredKeyMatches(carrier);
    CarrierPairCount(carrier, order, key, val);
    assert multiset([val])[val] == 1;
    forall i | 0 <= i < |pairs| && Matches(pairs[i])
      ensures pairs[i] == (key, val)
    {
      CarrierPairsStored(carrier, order, i);
    }
  }

  /** A carrier holding one matching key with one value extracts the parse of that value. */
  lemma ExtractSingleValue(format: Format, carrier: Carrier, order: seq<string>, val: string)
    requires IsTextFormat(format) && carrier.IsTextMap() && Enumerates(order, carrier.Keys())
    requires NoForeignMatch(carrier)
    requires carrier.Values(carrier.StoredKey(FakeIdKey)) == [val]
    ensures Atoi(val).Success? ==> Extract(format, carrier, order) == Extracted(Some(TestSpanContext(false, Atoi(val).value)), None)
    ensures Atoi(val).Failure? ==> Extract(format, carrier, order) == Extracted(Some(TestSpanContext(false, 0)), Some(ParseFailure(Atoi(val).error)))
  {
    var p := (carrier.StoredKey(FakeIdKey), val);
    var pairs := CarrierPairs(carrier, order);
    SingleMatchingPair(carrier, order, val);
    UniqueMatch(pairs, p, 0);
    if Atoi(val).Failure? {
      ExtractFailureKeepsZero(pairs, p);
    }
  }

  /**
   * A value that is not a decimal numeral is not silently read as some id:
   * the parse error is returned, carrying the value, and the id stays 0.
   */
  lemma ExtractNonNumeral(format: Format, carrier: Carrier, order: seq<string>, val: string)
    requires IsTextFormat(format) && carrier.IsTextMap() && Enumerates(order, carrier.Keys())
    requires NoForeignMatch(carrier)
    requires carrier.Values(carrier.StoredKey(FakeIdKey)) == [val]
    requires !IsNumeral(val)
    ensures Extract(format, carrier, order).err.Some?
    ensures Extract(format, carrier, order) == Extracted(Some(TestSpanContext(false, 0)), Some(ParseFailure(NumError(val, Atoi(val).error.kind))))
  {
    ExtractSingleValue(format, carrier, order, val);
  }

  /** The first span the test tracer starts from the initial counter is a root with id 2. */
  lemma FirstSpanId(name: string)
    ensures StartSpan(name, [], InitialFakeIdSource).span.spanContext == TestSpanContext(false, 2)
  {
  }

  /** On a parse failure of the single matching pair the id stays 0. */
  lemma {:induction false} ExtractFailureKeepsZero(pairs: seq<Pair>, p: Pair)
    requires Matches(p) && Atoi(p.1).Failure?
    requires forall i :: 0 <= i < |pairs| && Matches(pairs[i]) ==> pairs[i] == p
    ensures Foreach(pairs, ExtractHandler, 0).state == 0
    decreases |pairs|
  {
    if |pairs| > 0 {
      if !Matches(pairs[0]) {
        assert forall i :: 0 <= i < |pairs[1..]| ==> pairs[1..][i] == pairs[i + 1];
        ExtractFailureKeepsZero(pairs[1..], p);
      }
    }
  }

  /**
   * Round trip: extracting with a text format from what `Inject` wrote
   * recovers the fake id, whatever foreign keys share the carrier and in
   * whatever order they are visited.
   */
  lemma InjectExtractRoundTrip(sc: SpanContext, format: Format, carrier: Carrier, order: seq<string>)
    requires sc.TestSpanContext?
    requires IsTextFormat(format) && carrier.IsTextMap()
    requires NoForeignMatch(carrier)
    requires Enumerates(order, Inject(sc, format, carrier).carrier.Keys())
    ensures Inject(sc, format, carrier).err.None?
    ensures Extract(format, Inject(sc, format, carrier).carrier, order) == Extracted(Some(TestSpanContext(false, sc.fakeId)), None)
  {
    var c' := Inject(sc, format, carrier).carrier;
    assert c'.StoredKey(FakeIdKey) == carrier.StoredKey(FakeIdKey);
    assert NoForeignMatch(c');
    AtoiItoa(sc.fakeId);
    ExtractSingleValue(format, c', order, Itoa(sc.fakeId));
  }
}

=== FILE: tracer.dfy ===
/**
 * The start-option protocol of tracer.go: span references, the option
 * bundle `StartSpanOptions`, and the options that fold into it in call
 * order.
 */
module Options {
  import opened Wrappers
  import opened Spans

  /** `SpanReferenceType`, an `iota` enumeration. */
  datatype SpanReferenceType = ChildOfRef | FollowsFromRef
  {
    /** The integer value of the constant. */
    function Code(): int
    {
      match this
      case ChildOfRef => 0
      case FollowsFromRef => 1
    }
  }

  lemma ReferenceTypeCodes()
    ensures ChildOfRef.Code() == 0 && FollowsFromRef.Code() == 1
    ensures forall a: SpanReferenceType, b: SpanReferenceType :: a.Code() == b.Code() <==> a == b
  {
  }

  /** A causal edge to a prior span; `referencedContext` is `None` for a nil context. */
  datatype SpanReference = SpanReference(refType: SpanReferenceType, referencedContext: Option<SpanContext>)

  /** `ChildOf(sc)` */
  function ChildOf(sc: Option<SpanContext>): (r: SpanReference)
    ensures r.refType == ChildOfRef && r.refType.Code() == 0
    ensures r.referencedContext == sc
  {
    SpanReference(ChildOfRef, sc)
  }

  /** `FollowsFrom(sc)` */
  function FollowsFrom(sc: Option<SpanContext>): (r: SpanReference)
    ensures r.refType == FollowsFromRef && r.refType.Code() == 1
    ensures r.referencedContext == sc
  {
    SpanReference(FollowsFromRef, sc)
  }

  /** The bundle: references in insertion order, a start time, and a tag map that stays nil (`None`) until a tag is set. */
  datatype StartSpanOptions = StartSpanOptions(references: seq<SpanReference>, startTime: Time, tags: Option<map<string, Value>>)

  /** `StartSpanOptions{}` */
  const EmptyOptions: StartSpanOptions := StartSpanOptions([], ZeroTime, None)

  /** The `StartSpanOption` implementations of the package. */
  datatype StartSpanOption =
    | Reference(ref: SpanReference)
    | StartTime(time: Time)
    | Tags(tagMap: map<string, Value>)
    | Tag(key: string, value: Value)

  /** The tag map as Go reads it: a nil map reads as empty. */
  function TagsOf(o: StartSpanOptions): map<string, Value>
  {
    if o.tags.Some? then o.tags.value else map[]
  }

  /** `SpanReference.Apply`: a nil context is a no-op, otherwise the reference is appended. */
  function ApplyReference(r: SpanReference, o: StartSpanOptions): (o': StartSpanOptions)
    ensures r.referencedContext.None? ==> o' == o
    ensures r.referencedContext.Some? ==>
              && |o'.references| == |o.references| + 1
              && o'.references[..|o.references|] == o.references
              && o'.references[|o.references|] == r
    ensures o'.startTime == o.startTime && o'.tags == o.tags
  {
    if r.referencedContext.Some? then o.(references := o.references + [r]) else o
  }

  /** `StartTime.Apply`: overwrites the start time. */
  function ApplyStartTime(t: Time, o: StartSpanOptions): (o': StartSpanOptions)
    ensures o'.startTime == t
    ensures o'.references == o.references && o'.tags == o.tags
  {
    o.(startTime := t)
  }

  /** `Tags.Apply`: allocates the map if nil, then copies every entry of `t` over it. */
  function ApplyTags(t: map<string, Value>, o: StartSpanOptions): (o': StartSpanOptions)
    ensures o'.tags.Some?
    ensures o'.tags.value.Keys == TagsOf(o).Keys + t.Keys
    ensures forall k :: k in t ==> o'.tags.value[k] == t[k]
    ensures forall k :: k in TagsOf(o) && k !in t ==> o'.tags.value[k] == TagsOf(o)[k]
    ensures o'.references == o.references && o'.startTime == o.startTime
  {
    o.(tags := Some(TagsOf(o) + t))
  }

  /** `Tag.Apply`: allocates the map if nil, then sets one key. */
  function ApplyTag(key: string, value: Value, o: StartSpanOptions): (o': StartSpanOptions)
    ensures o'.tags.Some?
    ensures o'.tags.value.Keys == TagsOf(o).Keys + {key}
    ensures o'.tags.value[key] == value
    ensures forall k :: k in TagsOf(o) && k != key ==> o'.tags.value[k] == TagsOf(o)[k]
    ensures o'.references == o.references && o'.startTime == o.startTime
  {
    o.(tags := Some(TagsOf(o)[key := value]))
  }

  /** `StartSpanOption.Apply`, dispatched on the option's kind. */
  function Apply(opt: StartSpanOption, o: StartSpanOptions): (o': StartSpanOptions)
    ensures !opt.Reference? ==> o'.references == o.references
    ensures !opt.StartTime? ==> o'.startTime == o.startTime
    ensures !SetsTags(opt) ==> o'.tags == o.tags
    ensures o.tags.Some? ==> o'.tags.Some?
  {
    match opt
    case Reference(r) => ApplyReference(r, o)
    case StartTime(t) => ApplyStartTime(t, o)
    case Tags(t) => ApplyTags(t, o)
    case Tag(k, v) => ApplyTag(k, v, o)
  }

  /** Applies the options to the bundle in call order. */
  function ApplyAll(opts: seq<StartSpanOption>, o: StartSpanOptions): (o': StartSpanOptions)
    ensures o.references <= o'.references
    ensures o.tags.Some? ==> o'.tags.Some?
    decreases |opts|
  {
    if |opts| == 0 then o else ApplyAll(opts[1..], Apply(opts[0], o))
  }

  /** What a tracer's `StartSpan` builds from its variadic options. */
  function Fold(opts: seq<StartSpanOption>): (o: StartSpanOptions)
    ensures o.references == NonNilReferences(opts)
    ensures o.startTime == LastStartTime(opts, ZeroTime)
  {
    ApplyAllReferences(opts, EmptyOptions);
    ApplyAllStartTime(opts, EmptyOptions);
    ApplyAll(opts, EmptyOptions)
  }

  /** The references with a non-nil context, in the order the options list them. */
  function NonNilReferences(opts: seq<StartSpanOption>): seq<SpanReference>
    decreases |opts|
  {
    if |opts| == 0 then []
    else
      (if opts[0].Reference? && opts[0].ref.referencedContext.Some? then [opts[0].ref] else [])
      + NonNilReferences(opts[1..])
  }

  /** The start time of the last `StartTime` option, or `dflt` when there is none. */
  function LastStartTime(opts: seq<StartSpanOption>, dflt: Time): Time
    decreases |opts|
  {
    if |opts| == 0 then dflt
    else if opts[|opts| - 1].StartTime? then opts[|opts| - 1].time
    else LastStartTime(opts[..|opts| - 1], dflt)
  }

  predicate SetsTags(opt: StartSpanOption)
  {
    opt.Tags? || opt.Tag?
  }

  /** Applying a list is applying its first part, then its second. */
  lemma {:induction false} ApplyAllAppend(a: seq<StartSpanOption>, b: seq<StartSpanOption>, o: StartSpanOptions)
    ensures ApplyAll(a + b, o) == ApplyAll(b, ApplyAll(a, o))
    decreases |a|
  {
    if |a| == 0 {
      assert a + b == b;
    } else {
      assert (a + b)[0] == a[0];
      assert (a + b)[1..] == a[1..] + b;
      ApplyAllAppend(a[1..], b, Apply(a[0], o));
    }
  }

  /** The fold appends exactly the non-nil references, in their original order. */
  lemma {:induction false} ApplyAllReferences(opts: seq<StartSpanOption>, o: StartSpanOptions)
    ensures ApplyAll(opts, o).references == o.references + NonNilReferences(opts)
    decreases |opts|
  {
    if |opts| > 0 {
      var o1 := Apply(opts[0], o);
      ApplyAllReferences(opts[1..], o1);
      assert o1.references == o.references + (if opts[0].Reference? && opts[0].ref.referencedContext.Some? then [opts[0].ref] else []);
    }
  }

  /** Folding an option list yields as references the non-nil reference options, in order; none means a root span. */
  lemma FoldReferences(opts: seq<StartSpanOption>)
    ensures Fold(opts).references == NonNilReferences(opts)
    ensures Fold([]).references == []
  {
    ApplyAllReferences(opts, EmptyOptions);
  }

  /** The last `StartTime` option wins; without one the start time stays as it was. */
  lemma {:induction false} ApplyAllStartTime(opts: seq<StartSpanOption>, o: StartSpanOptions)
    ensures ApplyAll(opts, o).startTime == LastStartTime(opts, o.startTime)
    decreases |opts|
  {
    if |opts| > 0 {
      var init := opts[..|opts| - 1];
      var last := opts[|opts| - 1];
      assert opts == init + [last];
      ApplyAllAppend(init, [last], o);
      ApplyAllStartTime(init, o);
    }
  }

  /** The tag map is allocated exactly when some option sets a tag (or it was already allocated). */
  lemma {:induction false} ApplyAllTagsAllocated(opts: seq<StartSpanOption>, o: StartSpanOptions)
    ensures ApplyAll(opts, o).tags.Some? <==> o.tags.Some? || exists i :: 0 <= i < |opts| && SetsTags(opts[i])
    decreases |opts|
  {
    if |opts| > 0 {
      var o1 := Apply(opts[0], o);
      ApplyAllTagsAllocated(opts[1..], o1);
      assert o1.tags.Some? <==> o.tags.Some? || SetsTags(opts[0]);
      if exists i :: 0 <= i < |opts| && SetsTags(opts[i]) {
        var i :| 0 <= i < |opts| && SetsTags(opts[i]);
        if i > 0 {
          assert SetsTags(opts[1..][i - 1]);
        }
      }
      if exists i :: 0 <= i < |opts[1..]| && SetsTags(opts[1..][i]) {
        var i :| 0 <= i < |opts[1..]| && SetsTags(opts[1..][i]);
        assert SetsTags(opts[i + 1]);
      }
    }
  }

  /** A trailing `Tag` option decides its key, whatever came before. */
  lemma LastTagWins(opts: seq<StartSpanOption>, key: string, value: Value)
    ensures Fold(opts + [Tag(key, value)]).tags == Some(TagsOf(Fold(opts))[key := value])
  {
    ApplyAllAppend(opts, [Tag(key, value)], EmptyOptions);
  }

  /**
   * Appending a non-nil reference after the caller's options adds it as the
   * last reference and changes nothing else: the caller's first reference
   * stays first.
   */
  lemma FoldAppendReference(opts: seq<StartSpanOption>, r: SpanReference)
    requires r.referencedContext.Some?
    ensures Fold(opts + [Reference(r)]) == Fold(opts).(references := Fold(opts).references + [r])
  {
    ApplyAllAppend(opts, [Reference(r)], EmptyOptions);
  }

  /** Appending a reference with a nil context changes nothing. */
  lemma FoldAppendNilReference(opts: seq<StartSpanOption>, t: SpanReferenceType)
    ensures Fold(opts + [Reference(SpanReference(t, None))]) == Fold(opts)
  {
    ApplyAllAppend(opts, [Reference(SpanReference(t, None))], EmptyOptions);
  }
}

=== FILE: tracers.dfy ===
/**
 * The `Tracer` interface as a call site sees it: `StartSpan` dispatched on
 * the tracer's kind. Foreign tracers' code is not part of this model; it
 * is supplied as `ForeignCode`.
 */
module Tracers {
  import opened Strconv
  import opened Spans
  import opened Options
  import Ambient
  import Noop
  import FakeTracer

  /**
   * What foreign tracers do: their `StartSpan`, and the
   * `ContextWithSpanHook` of those that implement
   * `TracerContextWithSpanExtension` (ext.go).
   */
  datatype ForeignCode = ForeignCode(
    startSpan: (TracerKind, string, seq<StartSpanOption>) -> Span,
    contextWithSpanHook: (TracerKind, Ambient.Context, Span) -> Ambient.Context)

  /** The test tracer panics unless the first reference it sees is a test context. */
  predicate CanStart(t: TracerKind, opts: seq<StartSpanOption>)
  {
    t.TestTracer? ==> FakeTracer.FirstReferenceIsTest(Fold(opts).references)
  }

  /** `tracer.StartSpan(name, opts...)`; only the test tracer draws on the fake-id counter. */
  function StartSpan(t: TracerKind, name: string, opts: seq<StartSpanOption>, source: Int64, foreign: ForeignCode): (r: FakeTracer.Started)
    requires CanStart(t, opts)
    ensures !t.TestTracer? ==> r.source == source
    ensures t.NoopTracer? ==> r.span == Noop.DefaultNoopSpan
    ensures t.TestTracer? ==> r == FakeTracer.StartSpan(name, opts, source)
    ensures t.ForeignTracer? ==> r.span == foreign.startSpan(t, name, opts)
  {
    match t
    case NoopTracer => FakeTracer.Started(Noop.StartSpan(name, opts), source)
    case TestTracer => FakeTracer.StartSpan(name, opts, source)
    case ForeignTracer(_, _) => FakeTracer.Started(foreign.startSpan(t, name, opts), source)
  }
}

=== FILE: wrappers.dfy ===
/** Optional values and value-or-error results: Go's nil-able interface values and (value, error) pairs. */
module Wrappers {

  /** A value that may be absent: Go's nil interface or nil map. */
  datatype Option<+T> = None | Some(value: T)

  /** A value or an error, as returned by Go's `(T, error)` pairs where the value is unused on error. */
  datatype Result<+T, +E> = Success(value: T) | Failure(error: E)
}
